=== FILE: README.md ===
# tinyhttp substrate, modelled in Dafny

tinyhttp is a small C++ HTTP server built on a reactor loop. Underneath the
loop sits a substrate of header-only components, and this project models
them as pure functions over immutable data:

- the allocators and array buffers of `include/memory.h`:
  - `heap_allocator` and `aligned_heap_allocator` record every block they hand out;
  - `unique_array_buffer` is a move-only buffer;
  - `shared_array_buffer` is a buffer with a reference count;
- `buffer_stream`, the cursor every serialiser uses over those buffers
  (`include/memory.h`);
- the in-process event bus `event_channel`, and the packet framing `send_packet`/`recv_packet`
  that carries events between processes (`include/evchannel.h`);
- `tick_event` and the periodic task table `timer` (`include/timer.h`);
- the `event_log` record and the level names of `include/log.h`.

Modelling conventions:

- A buffer's bytes are a `seq<byte>` and its capacity is the sequence's length.
- Addresses are naturals, with 0 standing for nullptr.
- What `malloc` and `realloc` return is a parameter of each call, so allocation failure is an ordinary input. The one exception is the intended receiver `Packet.RecvPacket` (see "## Left out").
- Bytes that nobody has written yet are given by a `Fill` function parameter. Every property is stated for all fills.
- Integers that the C++ code copies with `memcpy` are laid out little-endian and two's complement, as on the x86-64 hosts the code targets.
- A call that can throw `memory_exception` returns a `Result`.

Each file is one module:

- `results.dfy` (Results): the shared result and option types;
- `bytes.dfy` (Bytes): bytes and fixed-width integers;
- `allocators.dfy` (Allocators);
- `array_buffers.dfy` (ArrayBuffers);
- `buffer_stream.dfy` (BufferStream);
- `event_channel.dfy` (EventChannel);
- `packet.dfy` (Packet);
- `timer.dfy` (Timer);
- `log_event.dfy` (Log);
- `wiring.dfy` (Wiring): how the pieces meet on one channel and on the wire.

Behaviours of the code that a reader might not expect, which the model keeps as written:

- `get()` for strings (include/memory.h:265-282) leaves the cursor on the terminating zero rather than consuming it.
- `recv_packet` (include/evchannel.h:104-118) checks the declared size against the receive buffer, not against the bytes that arrived. That buffer is zero-padded to 1024 bytes (include/io.h:98-119), so a frame shorter than its declared size is accepted with zeros in place of the missing bytes.
- Each handler `subscribe` packages (include/evchannel.h:36-38) builds its event from the content before calling back, and `post` (include/evchannel.h:72-80) catches nothing. The first handler whose event constructor throws ends the post, and later handlers are not called.
- The packet header on the wire is padded to 16 bytes, while the receiver reads 12 (see Findings).
- `recv_packet` copies a pointer, not the payload (see Findings).
- `aligned_heap_allocator` does not align, and frees the wrong address (see Findings).
- `heap_allocator::reallocate` loses its record of a block whose `realloc` fails (see Findings).
- `get_as()` for length-prefixed views lets a length near 2^64 wrap its bounds check (see Findings).

## Model

| member | source | states |
|---|---|---|
| Allocators.HeapAllocate | include/memory.h:60-68 | throws exactly when `malloc` returned nullptr, changing nothing; otherwise returns that block and tracks it in addition to every block tracked before |
| Allocators.HeapReallocateAsWritten | include/memory.h:69-81 | as written: an untracked pointer gives nullptr and no change; for a tracked one, the first record holding it becomes what `realloc` returned, whether or not that is nullptr, and the call then throws exactly when `realloc` failed and otherwise returns the new block |
| Allocators.HeapReallocate | include/memory.h:69-81 | as intended: throws exactly when `realloc` failed, leaving the allocator unchanged; on success returns the new block, which replaces the old one among the tracked blocks |
| Allocators.HeapRelease | include/memory.h:82-88 | frees every tracked block, each as often as it is tracked, and leaves nothing tracked |
| Allocators.HeapDestroy | include/memory.h:89-93 | the destructor frees exactly the blocks still tracked |
| Allocators.HeapMove | include/memory.h:57-59 | the move constructor gives the target every record and leaves the source tracking nothing |
| Allocators.HeapReleaseIdempotent | include/memory.h:82-93 | a second release frees nothing, and a release followed by the destructor frees each block once |
| Allocators.HeapMoveFreesOnce | include/memory.h:57-59 | after a move, destroying target and source frees each original block exactly once |
| Allocators.HeapReallocateAsWrittenLeaks | include/memory.h:73-76 | as written, a failed `realloc` of a tracked block erases it from the records, so the next release never frees it |
| Allocators.HeapReallocateFailureKeepsBlock | include/memory.h:73-76 | as intended, a block whose `realloc` failed is still freed by the next release |
| Allocators.AlignOffsetAsWrittenMisaligns | include/memory.h:118-119 | the offset as written, `base % align`, turns base 9 with alignment 8 into address 10, which is not 8-aligned |
| Allocators.AlignOffset | include/memory.h:114-119 | the offset chosen is below the alignment and makes the address a multiple of it |
| Allocators.AlignedAllocateAsWritten | include/memory.h:112-122 | as written: throws exactly when `malloc` returned nullptr, changing nothing; otherwise appends the record (base, `base % align`) and returns base plus that offset, which is aligned exactly when the base is aligned or lies half an alignment past a multiple |
| Allocators.AsWrittenOffsetAligns | include/memory.h:118-119 | `base + base % align` is a multiple of the alignment exactly when the base is one or its remainder is half the alignment |
| Allocators.AlignedAllocate | include/memory.h:112-122 | with the offset corrected (see Findings): throws exactly when `malloc` returned nullptr, changing nothing; otherwise appends one record whose base is that block, keeps the earlier records, and returns an aligned address within the `align` extra bytes |
| Allocators.FindChunk | include/memory.h:125-126 | finds the first record whose address is the given pointer, or reports that there is none |
| Allocators.AlignedReallocate | include/memory.h:123-137 | with the offset corrected: an unknown pointer gives nullptr and no change; a failed `realloc` throws and changes nothing; otherwise only the first matching record is replaced, its base is the new block, and the address returned is its aligned address |
| Allocators.AlignedReallocateAsWritten | include/memory.h:123-137 | as written: the same search and failure path, but the replaced record gets the offset `base % align`, so the address returned is `base + base % align`, aligned exactly when the base is aligned or half an alignment past a multiple |
| Allocators.AlignedReallocateThenRelease | include/memory.h:123-144 | as intended, after a successful reallocation release frees the same addresses as before, except that the moved block's new base replaces its old one at the same position |
| Allocators.AlignedReleaseAsWritten | include/memory.h:138-144 | as written, `free` is given each record's adjusted address, and the records are cleared |
| Allocators.AlignedRelease | include/memory.h:138-144 | as intended, `free` is given each block's base, in allocation order, and the records are cleared |
| Allocators.AlignedDestroy | include/memory.h:145-149 | as intended, with the corrected release: the destructor frees the base of every block still recorded |
| Allocators.AlignedDestroyAsWritten | include/memory.h:138-149 | as written, the destructor's release frees each record's adjusted address `base + offset`, which is the base `malloc` returned exactly when the offset is zero |
| Allocators.AlignedReleaseAsWrittenFreesWrongAddress | include/memory.h:118-149 | as written, allocating a block whose base is not a multiple of the alignment and then releasing it, or destroying the allocator, hands `free` the address `base + base % align`, which is not the base `malloc` returned |
| Allocators.AlignedReleaseFreesBases | include/memory.h:138-144 | as intended, one more allocation adds exactly the base `malloc` returned to the end of what release frees, and a second release frees nothing |
| ArrayBuffers.NewUniqueBuffer | include/memory.h:506-513 | with the default allocator: throws exactly when allocation fails; otherwise the buffer owns one fresh block and its `capacity` bytes are all zero |
| ArrayBuffers.MoveUniqueBuffer | include/memory.h:514-517 | the target is the original buffer; the source is left with nullptr, capacity 0 and no records |
| ArrayBuffers.ExpandUniqueBuffer | include/memory.h:519-526 | as written, through the reallocation as written: for a block its allocator tracks, throws exactly when `realloc` fails, and then keeps its pointer and bytes while the record becomes nullptr; on success the new block replaces the old among the records and the old bytes below the new capacity are kept; for a block with no record, returns without throwing and leaves the buffer holding nullptr |
| ArrayBuffers.ExpandUniqueBufferIntended | include/memory.h:519-526 | with the intended reallocation: throws exactly when `realloc` fails and then leaves the buffer, allocator included, as it was; on success the capacity is the new one, the old bytes below it are kept and the new block replaces the old among the records |
| ArrayBuffers.ExpandFailureLeaks | include/memory.h:519-526 | as written, after a failed `expand` the buffer still points at its block but no record holds it; the next `expand` returns without throwing and leaves nullptr, and neither the buffer's release nor the allocator's destructor frees the block |
| ArrayBuffers.ExpandIntendedFailureKeepsBlock | include/memory.h:519-526 | with the intended reallocation, a failed `expand` changes nothing and the next release frees the block |
| ArrayBuffers.ReleaseUniqueBuffer | include/memory.h:528-538 | a moved-from buffer frees nothing; otherwise every block its allocator tracks is freed and none stays tracked |
| ArrayBuffers.UniqueReleaseThenDestroyFreesOnce | include/memory.h:528-538 | a manual release followed by the destructor frees nothing the second time |
| ArrayBuffers.MovedUniqueBufferFreesOnce | include/memory.h:514-538 | after a move, the source's destructor frees nothing and the target's frees what the original owned |
| ArrayBuffers.NewShared | include/memory.h:429-446 | a new shared buffer has count 1 and has released nothing |
| ArrayBuffers.CopyShared | include/memory.h:447-455 | copying fails exactly when the count is already 0; otherwise it adds one reference |
| ArrayBuffers.DropShared | include/memory.h:467-483 | dropping a handle removes one reference and releases the allocator exactly when the count reaches 0 |
| ArrayBuffers.MoveHandle | include/memory.h:456-458 | moving hands the handle over and leaves a moved-from handle |
| ArrayBuffers.DropHandle | include/memory.h:467-470 | dropping a moved-from handle changes nothing; dropping a live one removes a reference |
| ArrayBuffers.CopyKeepsConsistent | include/memory.h:447-455 | from a state where the count equals the number of live handles, a copy keeps that true with one more handle |
| ArrayBuffers.DropKeepsConsistent | include/memory.h:467-483 | a drop keeps the count equal to the number of live handles, and the allocator is released once, by the last drop |
| ArrayBuffers.MoveKeepsCount | include/memory.h:456-458 | a move followed by the drop of the moved-from handle leaves the count unchanged |
| ArrayBuffers.CopyAfterReleaseFails | include/memory.h:449-453 | as intended, with the metadata kept alive after the last drop: once the last handle is gone, the copy's guard on the count makes it fail instead of returning a dangling handle |
| ArrayBuffers.CopyThenDropRestores | include/memory.h:447-483 | the temporary copy `post` makes for each handler, once dropped, leaves the count as it was |
| ArrayBuffers.CopySharedNCounts | include/memory.h:447-455 | n copies of a live buffer all succeed and add n references |
| ArrayBuffers.DropSharedNCounts | include/memory.h:467-483 | n drops that leave a handle live remove n references and release nothing |
| ArrayBuffers.SharedLifecycle | include/memory.h:429-483 | after n copies and n drops one handle is left and nothing is released; the last drop releases once; a copy after that fails, as intended, with the metadata kept alive |
| BufferStream.Open | include/memory.h:174 | a new stream starts at position 0, with end-of-file and auto-expansion off |
| BufferStream.Reference | include/memory.h:193-201 | gives no view exactly when offset + size passes the capacity; otherwise the view is those `size` bytes |
| BufferStream.Read | include/memory.h:204-214 | succeeds exactly when the range fits; on success the first `size` bytes of `dest` are the buffer's and the rest of `dest` is kept; on failure `dest` is untouched |
| BufferStream.Write | include/memory.h:217-228 | succeeds exactly when the range fits; on success exactly the range is replaced by `src`; on failure nothing changes |
| BufferStream.ReadAfterWrite | include/memory.h:204-228 | a successful write is read back unchanged |
| BufferStream.WriteWhatWasRead | include/memory.h:204-228 | writing back what was just read leaves the buffer as it was |
| BufferStream.GetFixed | include/memory.h:231-246 | the position always moves by the width; inside the capacity the bytes at the old position are returned, and end-of-file is set if the read ends exactly at the capacity; past it the result is zero and end-of-file is set |
| BufferStream.GetAsFixed | include/memory.h:284-300 | moves the cursor as `get<T>()` does and returns the same bytes, but throws exactly when the read passes the capacity |
| BufferStream.GetBytes | include/memory.h:248-263 | returns -1 and changes nothing at end-of-file; otherwise copies `size` bytes, or the rest of the buffer when the read reaches the capacity, where the cursor stops and end-of-file is set |
| BufferStream.CStringLength | include/memory.h:266-267 | counts the non-zero bytes from the position up to the next zero byte or the capacity |
| BufferStream.GetString | include/memory.h:265-282 | returns the zero-free bytes from the cursor up to the next zero byte, which it does not consume |
| BufferStream.CStringLengthAt | include/memory.h:266-267 | `strlen` at a zero-free string followed by a zero is that string's length |
| BufferStream.GetStringAt | include/memory.h:265-282 | `get()` at a zero-free string followed by a zero returns that string and leaves the cursor on the zero |
| BufferStream.GetPrefixed | include/memory.h:302-317 | when the 8-byte length and the data both fit, returns the data and moves past both; otherwise returns an empty view, sets end-of-file and leaves the cursor |
| BufferStream.GetPrefixedAsWritten | include/memory.h:302-317 | as written: fails as the intended one does when the 8-byte length does not fit; otherwise checks the data against the capacity with the sum of position, 8 and length taken modulo 2^64, and on success hands out a view of the declared length from after the prefix and moves the cursor to that wrapped sum |
| BufferStream.GetPrefixedLengthWraps | include/memory.h:310-315 | a 16-byte buffer declaring 2^64 - 8 bytes gets, as written, a view of 2^64 - 8 bytes from offset 8, past the buffer's end, and the cursor wraps back to 0; the intended read gives an empty view and sets end-of-file |
| BufferStream.GetPrefixedAsWrittenAgrees | include/memory.h:302-317 | where no sum reaches 2^64, the read as written and as intended leave the same stream, and the view covers the same bytes |
| BufferStream.GetPrefixedStaysInBuffer | include/memory.h:302-317 | the intended read never moves the cursor back, and from inside the buffer never past its end, so every view lies within the buffer |
| BufferStream.Expanded | include/memory.h:323-327 | the buffer grows to the new end exactly when auto-expansion is on and the end reaches the capacity, and the old bytes are kept |
| BufferStream.AppendRaw | include/memory.h:319-378 | succeeds exactly when auto-expansion is on or the bytes fit; on success they are placed at the old cursor and nothing else changes; the cursor always advances; end-of-file follows the source's rule |
| BufferStream.WriteAdjacent | include/memory.h:353-358 | two adjacent writes have the effect of one write of both parts |
| BufferStream.AppendPrefixed | include/memory.h:339-361 | succeeds exactly when auto-expansion is on or length and data fit, and then equals a raw append of the 8-byte length and the data; when only the length fits, only it is written |
| BufferStream.Rewind | include/memory.h:380-384 | the cursor goes back to 0 and end-of-file is kept |
| BufferStream.Back | include/memory.h:398-403 | the cursor moves back, wrapping around 2^64 as `size_t` does, and end-of-file is cleared exactly when the cursor lands inside the capacity |
| BufferStream.Forward | include/memory.h:404-409 | the cursor moves on, and end-of-file is set when it reaches the capacity |
| BufferStream.SetAutoExpand | include/memory.h:386-388 | only the auto-expansion flag changes |
| BufferStream.ClearEof | include/memory.h:394-396 | only the end-of-file flag changes |
| BufferStream.AppendThenGetFixed | include/memory.h:231-337 | a successful fixed-width append is read back by `get<T>()` after `back` over it |
| BufferStream.AppendThenRewindThenGet | include/memory.h:319-384 | with auto-expansion on, an append at the start always succeeds, grows the buffer to hold it, and is read back after `rewind` |
| BufferStream.AppendThenGetPrefixed | include/memory.h:302-361 | a successful length-prefixed append is read back by `get_as()`, which then ends where the append ended |
| BufferStream.AppendThenGetBytes | include/memory.h:248-263 | a non-empty raw append that succeeded is read back in full by `get(dest, size)` after `back` over it |
| BufferStream.AppendThenGetString | include/memory.h:265-282 | a zero-free string appended with its terminating zero is read back by `get()` after `back` over it, which leaves the cursor on the zero |
| BufferStream.ForwardThenBack | include/memory.h:398-409 | `back(n)` after `forward(n)` returns the cursor to where it was, and end-of-file is then set exactly when the cursor is at or past the capacity |
| BufferStream.ClearEofThenGetBytes | include/memory.h:248-263 | at end-of-file `get(dest, size)` returns -1; after `clear_eof()` it reads from the cursor again, `size` bytes or up to the capacity |
| EventChannel.Empty | include/evchannel.h:27-28 | a new channel has no handlers and hands out ids from 0 |
| EventChannel.Subscribe | include/evchannel.h:33-47 | returns the counter's id, advances the counter, appends the handler at the end of the event's list, leaves other events' lists alone, and keeps ids unique |
| EventChannel.Without | include/evchannel.h:57-63 | keeps only handlers of the list whose id differs |
| EventChannel.Unsubscribe | include/evchannel.h:52-67 | reports a removal exactly when the event has a list holding the id, and then removes it from that list only; otherwise nothing changes; ids stay unique |
| EventChannel.Calls | include/evchannel.h:76-78 | one call per handler, in list order, each with the event's content |
| EventChannel.Post | include/evchannel.h:72-80 | the fan-out of a post in which no handler throws: every handler registered for the event's id, in order, each with the content; an id with no list calls nobody |
| EventChannel.Deliver | include/evchannel.h:36-38 | the handlers of a list are entered in order; the post throws exactly when some handler's event constructor rejects the content, and then the last handler entered is the first such one and every handler before it accepted the content; without a throw every handler is entered |
| EventChannel.PostChecked | include/evchannel.h:72-80 | a post enters a prefix of the handlers of the event's id; it throws exactly when one of them cannot build its event from the content, which is then the last entered; otherwise it makes the whole fan-out |
| EventChannel.PostCheckedAllDecode | include/evchannel.h:36-80 | when every handler can build its event, the post makes the whole fan-out and does not throw |
| EventChannel.PostStopsAtFirstFailure | include/evchannel.h:36-80 | when the handler at index i is the first that cannot build its event, the post enters exactly the handlers up to and including it and then throws |
| EventChannel.WithoutKeepsIds | include/evchannel.h:57-63 | removing handlers keeps ids unique and below the counter |
| EventChannel.WithoutRemovesOne | include/evchannel.h:57-63 | with unique ids, removing the id at index i removes exactly that handler and keeps the rest in order |
| EventChannel.WithoutNone | include/evchannel.h:57-63 | removing an id nobody holds changes nothing |
| EventChannel.CallsAppend | include/evchannel.h:76-78 | the calls for two lists in a row are the calls of the first, then of the second |
| EventChannel.SubscribeThenPost | include/evchannel.h:33-80 | subscribing adds exactly one call, for the new handler, at the end of posts of that event, and changes posts of every other event not at all |
| EventChannel.SubscribeAllThenPost | include/evchannel.h:33-80 | subscribing K handlers and posting calls each once, in subscription order, with consecutive ids |
| EventChannel.UnsubscribeThenPost | include/evchannel.h:52-80 | unsubscribing a registered handler succeeds, and later posts make the same calls minus exactly that handler's |
| EventChannel.CallsRemove | include/evchannel.h:76-78 | dropping one handler from a list drops exactly its call |
| EventChannel.SubscribeThenUnsubscribe | include/evchannel.h:33-67 | unsubscribing the id a subscription returned succeeds and leaves every later post as before the subscription |
| EventChannel.SubscribeIdIsFresh | include/evchannel.h:34 | the id a subscription returns is held by no existing handler of any event |
| Packet.ReceivedBuffer | include/io.h:98-119 | the received bytes, followed by zeros up to 1024 bytes when fewer arrived |
| Packet.SendPacket | include/evchannel.h:83-102 | the packed frame: 12 bytes of header carrying the id and the content's size, then exactly the content |
| Packet.SendPacketAsWritten | include/evchannel.h:83-102 | as written: the id, 4 padding bytes, the 8-byte size, then the content, 16 header bytes in all |
| Packet.ReadHeader | include/evchannel.h:108-110 | the two `get_as` reads throw exactly when the buffer is shorter than the 12 header bytes, and otherwise give the id from bytes 0-3 and the signed size from bytes 4-11 |
| Packet.RecvPacket | include/evchannel.h:104-119 | as intended: fails with `recv_packet()`'s exception exactly when the declared size is negative or runs past the zero-padded receive buffer; otherwise returns the id from bytes 0-3 and exactly `size` bytes of that buffer from offset 12 |
| Packet.RecvPacketAsWritten | include/evchannel.h:104-119 | as written: throws `recv_packet()`'s exception exactly when the size is negative or the new `heap_allocator` cannot allocate the buffer of `size` bytes; otherwise the returned buffer has the declared size, and when the payload is in range its first 8 bytes are the address of the payload in the receive buffer, and otherwise the 8 zero bytes of a null pointer |
| Packet.PacketRoundTrip | include/evchannel.h:90-113 | with the packed header, every packet whose size fits an `int64` is received with its id and content |
| Packet.RecvThenSend | include/evchannel.h:90-113 | every packet received, sent again, gives back the prefix of the zero-padded receive buffer it was read from |
| Packet.ShortFrameIsZeroPadded | include/evchannel.h:104-119 | a frame of at least a header, shorter than its declared size, whose declared end lies within 1024 bytes is accepted, with the bytes that arrived after the header followed by zeros as its payload |
| Packet.SentHeader | include/evchannel.h:90-110 | the receiver reads a packed packet's own id and size, and finds the content right after the header |
| Packet.EncodeLEPrefix | include/evchannel.h:83-86 | the low bytes of a wider encoding are the narrower encoding |
| Packet.PaddedHeaderBreaksRoundTrip | include/evchannel.h:83-110 | for any non-empty content under 2^31 bytes and any padding, the receiver reads a size of at least 2^32; the intended receiver refuses the packet; the receiver as written throws exactly when the allocation of that many bytes fails, and otherwise accepts the packet and returns a buffer of at least 2^32 bytes instead of the content |
| Packet.PaddedHeaderSize | include/evchannel.h:83-110 | the size read from a padded header has the padding as its low 32 bits and the low half of the real size as its high 32 bits |
| Packet.PaddedHeaderCopiesNull | include/evchannel.h:83-113 | as written, for any non-empty content under 2^31 bytes and any padding, the receiver throws exactly when the allocation of the size it read fails, and otherwise accepts the packet with a payload that starts with the 8 zero bytes of a null pointer, because the size it reads runs past the receive buffer |
| Packet.PointerCopyLosesPayload | include/evchannel.h:113 | the receiver as written throws exactly when its allocation fails and otherwise returns a payload whose first 8 bytes are an address, not the content, while the intended receiver returns the content |
| Timer.EncodeTick | include/timer.h:15-18 | a tick event's content is 8 bytes that decode to its count |
| Timer.DecodeTick | include/timer.h:19-22 | decoding throws exactly when the content has fewer than 8 bytes, and otherwise reads the count from the first 8 |
| Timer.TickRoundTrip | include/timer.h:15-24 | a tick event rebuilt from its own content has the same count |
| Timer.MakeTv | include/timer.h:39-41 | `make_tv(gap, times)` is gap, gap, 0, times |
| Timer.Empty | include/timer.h:56-57 | a new timer has no tasks and hands out ids from 0 |
| Timer.Add | include/timer.h:62-67 | returns the counter's id, stores the task under it and advances the counter; in a valid timer the id was not in use |
| Timer.Cancel | include/timer.h:69-76 | reports a removal exactly when the task was present; only that task is removed |
| Timer.Query | include/timer.h:78-83 | a present task's `tv`, or all -1 for an absent id |
| Timer.AddThenQuery | include/timer.h:62-83 | `query` after `add` gives the stored `tv`; `cancel` of that id succeeds and `query` then gives all -1 |
| Timer.AddIdsIncrease | include/timer.h:62-67 | ids from successive `add` calls strictly increase |
| Timer.StepTask | include/timer.h:88-98 | the callback runs exactly when the countdown reaches 0, and it sees countdown 0 and the run count before the increment; the task is then removed exactly when the run count reaches the total, and otherwise waits `gap` again; a task that does not fire only has its countdown lowered by 1 |
| Timer.Tick | include/timer.h:85-101 | every task takes one step independently; a task is kept exactly when its step keeps it; a callback runs exactly for tasks whose countdown was 1; no task appears |
| Timer.TickNIsRunTask | include/timer.h:85-101 | after k ticks a task is present exactly when its own run has not ended, and then with the `tv` that run reached |
| Timer.TickNKeepsOut | include/timer.h:85-101 | ticking never brings back an absent task |
| Timer.Phase | include/timer.h:39-98 | a task from `make_tv(g, n)`, r ticks into its j-th period, has run j times and has g - r ticks to go |
| Timer.FiresOnPeriodEnds | include/timer.h:39-98 | within its first n periods, the task runs on a tick exactly when the tick ends a period: on ticks g, 2g, ..., n·g |
| Timer.RemovedAfterLastRun | include/timer.h:93-95 | from tick n·g on, the task is gone |
| Timer.QueryAfterLastRun | include/timer.h:78-98 | after n·g ticks, `query` of a task added as `make_tv(g, n)` gives all -1 |
| Timer.UnboundedNeverRemoved | include/timer.h:39-98 | a task with a non-negative run count and a total of zero or less, `inf_times` included, is never removed by ticking and keeps its total |
| Log.LevelName | include/log.h:48-59 | gives "NOSUCHLVL" exactly for values outside the enumeration, and "UNKNOWNLVL" exactly for UNKNOWN |
| Log.LevelOfName | include/log.h:38-59 | a name read back is always a level of the enumeration |
| Log.LevelNamesDistinct | include/log.h:38-59 | each level of the enumeration has its own name, which reads back as that level; no name stands for a value outside it |
| Log.LogBytes | include/log.h:71-86 | the record's layout takes 28 bytes plus the two strings |
| Log.EncodeLog | include/log.h:71-86 | whatever the new buffer held, the four auto-expanding appends never fail and leave exactly level, time, length-prefixed origin and length-prefixed message |
| Log.DecodeLog | include/log.h:87-103 | a buffer under 12 bytes throws `get_as`'s exception; a decoded record has a non-empty origin and message, and the bytes read are exactly its layout |
| Log.DecodedLayout | include/log.h:87-103 | the fields a decode reads, laid out again, are the bytes they were read from |
| Log.LogBytesFields | include/log.h:71-86 | each field of the layout sits at the offset the decoder reads it from |
| Log.DecodeLogSteps | include/log.h:87-103 | on a record's own bytes, each read of the decoder yields that record's field and ends where the next begins |
| Log.HeaderReads | include/log.h:88-91 | on any buffer of at least 12 bytes, the decoder's `get_as<log_level>()` reads bytes 0-3 and its `get_as<time_t>()` bytes 4-11, leaving the cursor at 12 |
| Log.DecodeLogBytes | include/log.h:71-103 | the decoder gives back every record with a non-empty origin and message from that record's layout |
| Log.LogRoundTrip | include/log.h:71-116 | a record with non-empty origin and message decodes from its own content to the same level, time, origin and message |
| Log.EmptyFieldFailsToDecode | include/log.h:95-102 | a record with an empty origin or message encodes, but decoding its content throws |
| Wiring.TickOverTheWire | include/evchannel.h:90-113 | as intended, with the packed header and the intended receiver: a tick is received with the tick event's id and a content that decodes to the same count |
| Wiring.TickOverTheWireAsWritten | include/evchannel.h:83-113 | as written, with the padded header and the pointer-copying receiver: the receiver asks for at least 2^35 bytes and throws exactly when that allocation fails; otherwise a tick of any count is accepted and decodes to 0 |
| Wiring.LogPostReachesTickHandler | include/timer.h:14 | with the ids as written and the logger subscribed first, posting a tick enters the logger, whose decode throws, so the post throws and the timer's handler is never called; a log record that decodes reaches both handlers, and one that does not ends the post at the logger |
| Wiring.LoggerFirstPost | include/evchannel.h:36-80 | with the logger first and the timer's handler second in a list, a content the logger cannot decode ends the post at the logger, and one both decode reaches both |
| Wiring.TickIsNoLogRecord | include/log.h:87-94 | a tick's 8 bytes decode as a tick and make the `event_log` constructor throw |
| Wiring.LogRecordIsTick | include/timer.h:19-22 | any content that decodes as a log record is long enough to decode as a tick |
| Wiring.DistinctIdsIsolateSubscribers | include/log.h:70 | with distinct ids, a tick reaches only the timer and a log record only the logger |
| Wiring.DistinctIdsTickReachesTimer | include/log.h:70 | with a distinct id for the logger, a posted tick enters only the timer's handler, which decodes it, and the post completes |

## Left out

- Locking: every `std::mutex` and `std::shared_mutex` use in memory.h and timer.h is left out, because the model is sequential. This includes the teardown order in the shared buffer's destructor, which unlocks twice and touches its metadata after the allocator that owns it is gone.
- Moved-from shared handles: the shared buffer's destructor tests `&meta_->ptr != nullptr`, which only skips a moved-from handle because the member sits at offset 0 of a null pointer. The model reads it as that intent (ArrayBuffers.DropHandle).
- Shared buffer bytes: the shared buffer is modelled by its counting protocol, and its bytes are a plain sequence wherever a stream uses them. Its `expand`, including a failed `realloc` there, is not a separate operation.
- Stream growth: `buffer_stream` assumes growing the buffer succeeds. In the source, a failed `realloc` throws out of `append`.
- ArrayBuffers.NewUniqueBuffer: always starts from a default allocator. The constructor's optional allocator argument is not modelled, because every caller in the source uses the default.
- EventChannel.PostChecked: only an exception from a handler's event constructor is modelled. An exception from the callback itself would end the post the same way, but the callbacks' bodies lie outside the channel.
- Packet.RecvPacket: checks the declared size against the zero-padded receive buffer, as the source does. A bound on the bytes that actually arrived is not modelled, because the source has none (Packet.ShortFrameIsZeroPadded).
- ArrayBuffers.CopyAfterReleaseFails: the model keeps the shared metadata alive after the last drop and reads the guard on the count as its intent. In the source the metadata comes from the same allocator as the bytes (include/memory.h:431), the last drop's `release` and `delete` free it (include/memory.h:478-479), and the copy's guard then reads freed memory, so a copy after the last drop is not promised to throw.
- ArrayBuffers.SharedLifecycle: its last clause, that a copy after the last drop fails, rests on the same kept-alive metadata as ArrayBuffers.CopyAfterReleaseFails and is the intent, not a promise of the source.
- Log.DecodeLog: reads the prefixed origin and message with the corrected BufferStream.GetPrefixed. With the source's wrapping bounds check (BufferStream.GetPrefixedAsWritten), a length prefix near 2^64 would pass the check and read outside the buffer; that case is not promised.
- BufferStream.GetPrefixed: computes without wrap-around; the wrap of the source's bounds check is modelled separately by BufferStream.GetPrefixedAsWritten (see Findings).
- `size_t` arithmetic: positions and sizes are unbounded. Wrap-around at 2^64 is written out in `back` and in `BufferStream.GetPrefixedAsWritten`, where a length read from the data is added; other sums of a position and a size are not wrapped.
- BufferStream.GetString: stops at the capacity. `strlen` in the source runs on until it finds a zero byte, past the buffer if need be.
- BufferStream.GetBytes: copies nothing when the cursor is already past the capacity (possible after `clear_eof`). The source computes a wrapped remainder there and its copy is undefined.
- EventChannel.Unsubscribe: leaves the list unchanged and returns false when the event's list exists but holds no such id. The source erases at the end iterator there, which is undefined.
- EventChannel.Unsubscribe: removes every handler with the id. The source's single-element erase equals this only while ids are unique, which `Subscribe` guarantees.
- Id counter overflow: the `int` counters for callback ids and task ids are unbounded, so their overflow is not modelled.
- Timer task fields: the `int64_t` fields of a task are unbounded integers.
- Timer.Tick: the source erases the current task inside its range-for loop, which invalidates the iterator. The model applies the intended per-task step to every task.
- Timer.Tick: the callbacks are returned as a map by task id, not run in order, because `unordered_map` order is unspecified. A callback that adds or cancels tasks from inside the tick is not modelled.
- `timer::stop`: it only clears a flag nothing reads.
- Socket and file I/O: `send_packet` and `recv_packet` work on whole byte sequences. The descriptors, `writefd`, partial and multi-packet reads, and `io_exception` are not modelled.
- Packet.RecvPacket: assumes `malloc` succeeds for a non-negative size. A negative size is a failure. The sizes it accepts are bounded by the receive buffer; the receiver as written, which accepts any non-negative size, takes the allocation's result as a parameter (Packet.RecvPacketAsWritten).
- `memory_exception` text: the exception carries the function that threw it but not its reason text.
- Alignment: an `aligned_heap_allocator` alignment of zero (a division by zero in the source) or below zero (converted to a huge `size_t` there) is excluded by the `Alignment` type.
- include/stacktrace.h, the reactor loop of src/reactor.cpp, and the logger's file and console output (`log_init`, `log`, `log_close`, `get_formatted_time`) are not part of this model. Neither are the exceptions' `print` methods.

## Findings

| source | as written | input that shows it | evidently intended | confidence | as-written member | corrected member |
|---|---|---|---|---|---|---|
| include/evchannel.h:83-98 | `event_packet_header` is an `int` then a `size_t`, so `send_packet` writes 16 header bytes with 4 padding bytes, while `recv_packet` reads the size at offset 4 and the payload at offset 12 | any content of 1 to 2^31 - 1 bytes: the size read is at least 2^32, so the receiver as written throws if it cannot allocate that many bytes and otherwise returns a buffer of at least 2^32 bytes instead of the content, and a receiver that checked the size against the data would refuse the packet | a packed 12-byte header, as the receiver reads it | not executed | Packet.SendPacketAsWritten, Packet.PaddedHeaderBreaksRoundTrip, Packet.PaddedHeaderCopiesNull, Wiring.TickOverTheWireAsWritten | Packet.SendPacket, Packet.PacketRoundTrip, Wiring.TickOverTheWire |
| include/evchannel.h:113 | `append(stream.reference(12, size))` selects `append<char*>`, which writes the 8 bytes of the pointer into the new buffer | any packet with 8 or more content bytes whose first 8 bytes differ from the receive address + 12 | copy `size` bytes from offset 12 | not executed | Packet.RecvPacketAsWritten, Packet.PointerCopyLosesPayload, Wiring.TickOverTheWireAsWritten | Packet.RecvPacket, Packet.PacketRoundTrip, Wiring.TickOverTheWire |
| include/memory.h:118-131 | the offset added to the block by `allocate` and `reallocate` is `base % align` | base 9, alignment 8: address 10 | the distance to the next multiple of the alignment | not executed | Allocators.AlignOffsetAsWrittenMisaligns, Allocators.AlignedReallocateAsWritten | Allocators.AlignOffset, Allocators.AlignedReallocate |
| include/memory.h:138-144 | `release` frees the adjusted address kept in each record | any block whose base is not a multiple of the alignment: `free` gets the adjusted address instead of the base | free the base, the adjusted address minus its offset | not executed | Allocators.AlignedAllocateAsWritten, Allocators.AlignedReleaseAsWritten, Allocators.AlignedDestroyAsWritten, Allocators.AlignedReleaseAsWrittenFreesWrongAddress | Allocators.AlignedRelease, Allocators.AlignedDestroy, Allocators.AlignedReleaseFreesBases |
| include/memory.h:73-76 | the record is overwritten with `realloc`'s result before the null check | a tracked block whose `realloc` fails: the record becomes nullptr and the block is never freed | keep the old block in the record when `realloc` fails | not executed | Allocators.HeapReallocateAsWritten, Allocators.HeapReallocateAsWrittenLeaks, ArrayBuffers.ExpandUniqueBuffer, ArrayBuffers.ExpandFailureLeaks | Allocators.HeapReallocate, Allocators.HeapReallocateFailureKeepsBlock, ArrayBuffers.ExpandUniqueBufferIntended, ArrayBuffers.ExpandIntendedFailureKeepsBlock |
| include/timer.h:14 | `tick_event` and `event_log` (include/log.h:70) both have `unique_event_id = 1` | a channel where the logger subscribes and then the timer: a posted tick enters the logger, whose decode throws out of `post`, so the timer never ticks | distinct event ids | not executed | Wiring.LogPostReachesTickHandler | Wiring.DistinctIdsIsolateSubscribers |
| include/memory.h:310-315 | `get_as()` adds the position, 8 and a length read from the data in `size_t` before comparing with the capacity | a 16-byte buffer whose first 8 bytes declare 2^64 - 8: the check passes, the view covers 2^64 - 8 bytes from offset 8, and the cursor wraps to 0; `event_log`'s decoder reads its origin and message this way | refuse a length that does not fit in what is left of the buffer | not executed | BufferStream.GetPrefixedAsWritten, BufferStream.GetPrefixedLengthWraps | BufferStream.GetPrefixed, BufferStream.GetPrefixedStaysInBuffer |

=== FILE: allocators.dfy ===
/** The two allocators of memory.h.

    `heap_allocator` remembers every block it hands out so that one
    `release()` frees them all; `aligned_heap_allocator` over-allocates by the
    alignment and remembers the offset it applied to each block. Addresses are
    plain numbers (0 is nullptr) and what `malloc`/`realloc` return is a
    parameter of each call, so allocation failure is an ordinary input. */
module Allocators {
  import opened Results

  /** An address; 0 is nullptr. */
  type Ptr = nat

  /** An allocator after a call that returns an address or throws. The state is
      kept on both paths, because a throwing call may already have changed it. */
  datatype Issued<A> = Issued(alloc: A, ptr: Result<Ptr>)

  /** An allocator after a release, with the addresses handed to `free()`, in order. */
  datatype Freed<A> = Freed(alloc: A, freed: seq<Ptr>)

  /** An allocator handed over by its move constructor, and what is left in the source. */
  datatype Moved<A> = Moved(target: A, source: A)

  predicate NoDuplicates(s: seq<Ptr>) {
    forall i, j :: 0 <= i < j < |s| ==> s[i] != s[j]
  }

  /** Position of the first occurrence of `x`: the record the range-for stops at. */
  function IndexOf(s: seq<Ptr>, x: Ptr): (i: nat)
    requires x in s
    ensures i < |s| && s[i] == x && x !in s[..i]
  {
    if s[0] == x then 0 else 1 + IndexOf(s[1..], x)
  }

  // ---------------------------------------------------------------------------
  // heap_allocator

  /** `heap_allocator`: the blocks issued and not yet freed, in issue order. */
  datatype HeapAllocator = HeapAllocator(ptrs: seq<Ptr>)

  /** `allocate(size)`, where `malloc` is what `malloc(size)` returned. */
  function HeapAllocate(a: HeapAllocator, malloc: Ptr): (r: Issued<HeapAllocator>)
    ensures r.ptr.Err? <==> malloc == 0
    ensures r.ptr.Err? ==> r.alloc == a
    ensures r.ptr.Ok? ==> r.ptr.value == malloc
    ensures r.ptr.Ok? ==> multiset(r.alloc.ptrs) == multiset(a.ptrs) + multiset{malloc}
  {
    if malloc == 0 then Issued(a, Err(MemoryException("heap_allocator::allocate()")))
    else Issued(HeapAllocator(a.ptrs + [malloc]), Ok(malloc))
  }

  /** `reallocate(ptr, size)` exactly as written: the record is overwritten with
      what `realloc` returned BEFORE the null check, so a failing `realloc`
      leaves nullptr in the record while the old block stays allocated. */
  function HeapReallocateAsWritten(a: HeapAllocator, ptr: Ptr, realloced: Ptr): (r: Issued<HeapAllocator>)
    ensures ptr !in a.ptrs ==> r == Issued(a, Ok(0))
    ensures ptr in a.ptrs ==> (r.ptr.Err? <==> realloced == 0)
    ensures ptr in a.ptrs && realloced != 0 ==> r.ptr == Ok(realloced)
    ensures ptr in a.ptrs ==> r.alloc.ptrs == a.ptrs[IndexOf(a.ptrs, ptr) := realloced]
    ensures |r.alloc.ptrs| == |a.ptrs|
  {
    if ptr !in a.ptrs then
      // The source returns nullptr here and calls the case undefined.
      Issued(a, Ok(0))
    else
      var i := IndexOf(a.ptrs, ptr);
      var a' := HeapAllocator(a.ptrs[i := realloced]);
      if realloced == 0 then Issued(a', Err(MemoryException("heap_allocator::reallocate()")))
      else Issued(a', Ok(realloced))
  }

  /** `reallocate(ptr, size)` as intended: a failing `realloc` leaves the
      old block, still allocated, in the record. The rest of the model uses
      this one. */
  function HeapReallocate(a: HeapAllocator, ptr: Ptr, realloced: Ptr): (r: Issued<HeapAllocator>)
    ensures ptr !in a.ptrs ==> r == Issued(a, Ok(0))
    ensures ptr in a.ptrs ==> (r.ptr.Err? <==> realloced == 0)
    ensures r.ptr.Err? ==> r.alloc == a
    ensures ptr in a.ptrs && realloced != 0 ==>
      && r.ptr == Ok(realloced)
      && multiset(r.alloc.ptrs) == multiset(a.ptrs) - multiset{ptr} + multiset{realloced}
  {
    if ptr !in a.ptrs then Issued(a, Ok(0))
    else if realloced == 0 then Issued(a, Err(MemoryException("heap_allocator::reallocate()")))
    else
      var i := IndexOf(a.ptrs, ptr);
      Issued(HeapAllocator(a.ptrs[i := realloced]), Ok(realloced))
  }

  /** `release()`: frees every tracked block and forgets them. */
  function HeapRelease(a: HeapAllocator): (r: Freed<HeapAllocator>)
    ensures r.alloc.ptrs == []
    ensures multiset(r.freed) == multiset(a.ptrs)
  {
    Freed(HeapAllocator([]), a.ptrs)
  }

  /** `~heap_allocator()`: releases only when something is still tracked. */
  function HeapDestroy(a: HeapAllocator): (r: Freed<HeapAllocator>)
    ensures multiset(r.freed) == multiset(a.ptrs)
  {
    if |a.ptrs| > 0 then HeapRelease(a) else Freed(a, [])
  }

  /** The move constructor: the target takes the records, the source keeps none. */
  function HeapMove(a: HeapAllocator): (r: Moved<HeapAllocator>)
    ensures r.target == a && r.source.ptrs == []
  {
    Moved(a, HeapAllocator([]))
  }

  /** Releasing twice, or releasing and then destroying, frees every block
      exactly once. */
  lemma HeapReleaseIdempotent(a: HeapAllocator)
    ensures HeapRelease(HeapRelease(a).alloc) == Freed(HeapAllocator([]), [])
    ensures HeapRelease(a).freed + HeapDestroy(HeapRelease(a).alloc).freed == a.ptrs
  {
  }

  /** After a move, destroying both the target and the source frees every
      block exactly once. */
  lemma HeapMoveFreesOnce(a: HeapAllocator)
    ensures HeapDestroy(HeapMove(a).target).freed + HeapDestroy(HeapMove(a).source).freed == a.ptrs
  {
  }

  /** Finding: with the reallocation as written, a failing `realloc` drops the
      block from the records, so no later release frees it. */
  lemma HeapReallocateAsWrittenLeaks(a: HeapAllocator, ptr: Ptr)
    requires ptr != 0 && ptr in a.ptrs && NoDuplicates(a.ptrs)
    ensures HeapReallocateAsWritten(a, ptr, 0).ptr.Err?
    ensures ptr !in HeapRelease(HeapReallocateAsWritten(a, ptr, 0).alloc).freed
  {
    var i := IndexOf(a.ptrs, ptr);
    var s := a.ptrs[i := 0];
    forall j | 0 <= j < |s|
      ensures s[j] != ptr
    {
      if j != i {
        assert a.ptrs[j] != a.ptrs[i];
      }
    }
  }

  /** With the intended reallocation, a block whose `realloc` failed is still
      tracked and is freed by the next release. */
  lemma HeapReallocateFailureKeepsBlock(a: HeapAllocator, ptr: Ptr)
    requires ptr in a.ptrs
    ensures HeapReallocate(a, ptr, 0).ptr.Err?
    ensures ptr in HeapRelease(HeapReallocate(a, ptr, 0).alloc).freed
  {
  }

  // ---------------------------------------------------------------------------
  // aligned_heap_allocator

  type Alignment = x: int | 1 <= x witness 1

  /** One record: `base` is what `malloc`/`realloc` returned, `offset` what was
      added to it. The source stores the adjusted address and the offset; the
      two forms carry the same information. */
  datatype Chunk = Chunk(base: Ptr, offset: nat) {
    /** The address handed to the caller. */
    function Address(): Ptr { base + offset }
  }

  datatype AlignedAllocator = AlignedAllocator(chunks: seq<Chunk>, align: Alignment)

  /** The offset as written: `base % align`. Adding it does not align the
      address in general (see `AlignOffsetAsWrittenMisaligns`). */
  function AlignOffsetAsWritten(base: Ptr, align: Alignment): nat {
    base % align
  }

  /** Finding: base 9 with alignment 8 yields address 10, which is not
      8-aligned. */
  lemma AlignOffsetAsWrittenMisaligns()
    ensures (9 + AlignOffsetAsWritten(9, 8)) % 8 == 2
  {
  }

  lemma MulAtLeast(k: int, y: int)
    requires k >= 1 && y >= 1
    ensures k * y >= y
    decreases k
  {
    if k > 1 {
      MulAtLeast(k - 1, y);
      assert k * y == (k - 1) * y + y;
    }
  }

  /** Euclidean division is unique: a quotient and a remainder in range are
      the ones `/` and `%` give. */
  lemma DivModUnique(x: int, y: int, q: int, r: int)
    requires y >= 1 && 0 <= r < y && x == q * y + r
    ensures x % y == r
  {
    var m := x % y;
    var d := x / y;
    assert x == d * y + m && 0 <= m < y;
    assert (q - d) * y == m - r;
    if q - d >= 1 {
      MulAtLeast(q - d, y);
    } else if q - d <= -1 {
      MulAtLeast(d - q, y);
    }
  }

  lemma ModOfMultiple(q: int, y: int)
    requires y >= 1
    ensures (q * y) % y == 0
  {
    DivModUnique(q * y, y, q, 0);
  }

  /** The offset that over-allocating by `align` bytes is meant to buy: the
      smallest one that makes the address a multiple of the alignment. The
      model's allocator uses this one. */
  function AlignOffset(base: Ptr, align: Alignment): (r: nat)
    ensures r < align
    ensures (base + r) % align == 0
  {
    var m := base % align;
    var r := if m == 0 then 0 else align - m;
    assert base + r == (base / align + (if m == 0 then 0 else 1)) * align;
    ModOfMultiple(base / align + (if m == 0 then 0 else 1), align);
    r
  }

  /** `allocate(size)`, where `malloc` is what `malloc(size + align)` returned. */
  function AlignedAllocate(a: AlignedAllocator, malloc: Ptr): (r: Issued<AlignedAllocator>)
    ensures r.ptr.Err? <==> malloc == 0
    ensures r.alloc.align == a.align
    ensures r.ptr.Err? ==> r.alloc == a
    ensures r.ptr.Ok? ==>
      && |r.alloc.chunks| == |a.chunks| + 1
      && r.alloc.chunks[..|a.chunks|] == a.chunks
      && r.alloc.chunks[|a.chunks|].base == malloc
      && r.ptr.value == r.alloc.chunks[|a.chunks|].Address()
      && malloc <= r.ptr.value < malloc + a.align
      && r.ptr.value % a.align == 0
  {
    if malloc == 0 then Issued(a, Err(MemoryException("aligned_heap_allocator::allocate()")))
    else
      var c := Chunk(malloc, AlignOffset(malloc, a.align));
      Issued(a.(chunks := a.chunks + [c]), Ok(c.Address()))
  }

  /** `allocate(size)` as written: the offset is `base % align`, so the
      address returned is aligned only when the base already was or lies
      exactly half an alignment past a multiple. */
  function AlignedAllocateAsWritten(a: AlignedAllocator, malloc: Ptr): (r: Issued<AlignedAllocator>)
    ensures r.ptr.Err? <==> malloc == 0
    ensures r.alloc.align == a.align
    ensures r.ptr.Err? ==> r.alloc == a
    ensures r.ptr.Ok? ==>
      && |r.alloc.chunks| == |a.chunks| + 1
      && r.alloc.chunks[..|a.chunks|] == a.chunks
      && r.alloc.chunks[|a.chunks|] == Chunk(malloc, AlignOffsetAsWritten(malloc, a.align))
      && r.ptr.value == r.alloc.chunks[|a.chunks|].Address()
      && (r.ptr.value % a.align == 0 <==> malloc % a.align == 0 || 2 * (malloc % a.align) == a.align)
  {
    if malloc == 0 then Issued(a, Err(MemoryException("aligned_heap_allocator::allocate()")))
    else
      var c := Chunk(malloc, AlignOffsetAsWritten(malloc, a.align));
      AsWrittenOffsetAligns(malloc, a.align);
      Issued(a.(chunks := a.chunks + [c]), Ok(c.Address()))
  }

  /** `base + base % align` is a multiple of `align` exactly when `base`
      already is, or when its remainder is half the alignment. */
  lemma AsWrittenOffsetAligns(base: Ptr, align: Alignment)
    ensures (base + base % align) % align == 0 <==> base % align == 0 || 2 * (base % align) == align
  {
    var m := base % align;
    var q := base / align;
    if 2 * m < align {
      DivModUnique(base + m, align, q, 2 * m);
    } else {
      DivModUnique(base + m, align, q + 1, 2 * m - align);
    }
  }

  /** Position of the first record whose address is `ptr`, or |chunks|. */
  function FindChunk(chunks: seq<Chunk>, ptr: Ptr): (i: nat)
    ensures i <= |chunks|
    ensures forall j :: 0 <= j < i ==> chunks[j].Address() != ptr
    ensures i < |chunks| ==> chunks[i].Address() == ptr
  {
    if |chunks| == 0 || chunks[0].Address() == ptr then 0 else 1 + FindChunk(chunks[1..], ptr)
  }

  /** `reallocate(ptr, size)`: the block's original base goes to `realloc`
      (which returned `realloced`), and the record is replaced only when it
      succeeds. */
  function AlignedReallocate(a: AlignedAllocator, ptr: Ptr, realloced: Ptr): (r: Issued<AlignedAllocator>)
    ensures r.alloc.align == a.align
    ensures FindChunk(a.chunks, ptr) == |a.chunks| ==> r == Issued(a, Ok(0))
    ensures r.ptr.Err? <==> FindChunk(a.chunks, ptr) < |a.chunks| && realloced == 0
    ensures r.ptr.Err? ==> r.alloc == a
    ensures FindChunk(a.chunks, ptr) < |a.chunks| && realloced != 0 ==>
      && |r.alloc.chunks| == |a.chunks|
      && r.alloc.chunks[FindChunk(a.chunks, ptr)].base == realloced
      && r.ptr == Ok(r.alloc.chunks[FindChunk(a.chunks, ptr)].Address())
      && r.ptr.value % a.align == 0
      && forall j :: 0 <= j < |a.chunks| && j != FindChunk(a.chunks, ptr) ==> r.alloc.chunks[j] == a.chunks[j]
  {
    var i := FindChunk(a.chunks, ptr);
    if i == |a.chunks| then Issued(a, Ok(0))
    else if realloced == 0 then Issued(a, Err(MemoryException("aligned_heap_allocator::reallocate()")))
    else
      var c := Chunk(realloced, AlignOffset(realloced, a.align));
      Issued(a.(chunks := a.chunks[i := c]), Ok(c.Address()))
  }

  /** `reallocate(ptr, size)` as written: the new record's offset is
      `base % align`, as in `allocate` as written. The search, the failure
      path and the untouched records are as in the corrected version. */
  function AlignedReallocateAsWritten(a: AlignedAllocator, ptr: Ptr, realloced: Ptr): (r: Issued<AlignedAllocator>)
    ensures r.alloc.align == a.align
    ensures FindChunk(a.chunks, ptr) == |a.chunks| ==> r == Issued(a, Ok(0))
    ensures r.ptr.Err? <==> FindChunk(a.chunks, ptr) < |a.chunks| && realloced == 0
    ensures r.ptr.Err? ==> r.alloc == a
    ensures FindChunk(a.chunks, ptr) < |a.chunks| && realloced != 0 ==>
      && r.alloc.chunks == a.chunks[FindChunk(a.chunks, ptr) := Chunk(realloced, AlignOffsetAsWritten(realloced, a.align))]
      && r.ptr == Ok(realloced + realloced % a.align)
      && (r.ptr.value % a.align == 0 <==> realloced % a.align == 0 || 2 * (realloced % a.align) == a.align)
  {
    var i := FindChunk(a.chunks, ptr);
    if i == |a.chunks| then Issued(a, Ok(0))
    else if realloced == 0 then Issued(a, Err(MemoryException("aligned_heap_allocator::reallocate()")))
    else
      var c := Chunk(realloced, AlignOffsetAsWritten(realloced, a.align));
      AsWrittenOffsetAligns(realloced, a.align);
      Issued(a.(chunks := a.chunks[i := c]), Ok(c.Address()))
  }

  /** After a successful `reallocate`, `release` frees what it would have
      freed before, except that the moved block's new base takes the place of
      its old one. */
  lemma AlignedReallocateThenRelease(a: AlignedAllocator, ptr: Ptr, realloced: Ptr)
    requires FindChunk(a.chunks, ptr) < |a.chunks| && realloced != 0
    ensures AlignedRelease(AlignedReallocate(a, ptr, realloced).alloc).freed
         == AlignedRelease(a).freed[FindChunk(a.chunks, ptr) := realloced]
  {
    var i := FindChunk(a.chunks, ptr);
    var before := AlignedRelease(a).freed;
    var after := AlignedRelease(AlignedReallocate(a, ptr, realloced).alloc).freed;
    assert |after| == |before[i := realloced]|;
    forall j | 0 <= j < |after|
      ensures after[j] == before[i := realloced][j]
    {
    }
  }

  /** `release()` as written: it frees the adjusted addresses, not the bases
      `malloc`/`realloc` returned. */
  function AlignedReleaseAsWritten(a: AlignedAllocator): (r: Freed<AlignedAllocator>)
    ensures r.alloc.chunks == [] && |r.freed| == |a.chunks|
    ensures forall i :: 0 <= i < |a.chunks| ==> r.freed[i] == a.chunks[i].base + a.chunks[i].offset
  {
    Freed(a.(chunks := []), seq(|a.chunks|, i requires 0 <= i < |a.chunks| => a.chunks[i].Address()))
  }

  /** `release()` as intended: every base is freed once and the records are
      cleared. */
  function AlignedRelease(a: AlignedAllocator): (r: Freed<AlignedAllocator>)
    ensures r.alloc.chunks == [] && r.alloc.align == a.align && |r.freed| == |a.chunks|
    ensures forall i :: 0 <= i < |a.chunks| ==> r.freed[i] == a.chunks[i].base
  {
    Freed(a.(chunks := []), seq(|a.chunks|, i requires 0 <= i < |a.chunks| => a.chunks[i].base))
  }

  /** `~aligned_heap_allocator()` as intended: releases, with the corrected
      `release`, only when something is still tracked. */
  function AlignedDestroy(a: AlignedAllocator): (r: Freed<AlignedAllocator>)
    ensures |r.freed| == |a.chunks|
    ensures forall i :: 0 <= i < |a.chunks| ==> r.freed[i] == a.chunks[i].base
  {
    if |a.chunks| > 0 then AlignedRelease(a) else Freed(a, [])
  }

  /** `~aligned_heap_allocator()` as written: the `release` it calls frees
      the adjusted addresses, so every block whose offset is not zero is
      freed at an address `malloc` never returned. */
  function AlignedDestroyAsWritten(a: AlignedAllocator): (r: Freed<AlignedAllocator>)
    ensures |r.freed| == |a.chunks|
    ensures forall i :: 0 <= i < |a.chunks| ==> r.freed[i] == a.chunks[i].base + a.chunks[i].offset
    ensures forall i :: 0 <= i < |a.chunks| ==> (r.freed[i] == a.chunks[i].base <==> a.chunks[i].offset == 0)
  {
    if |a.chunks| > 0 then AlignedReleaseAsWritten(a) else Freed(a, [])
  }

  /** Finding: for a block whose base is not aligned, the release as written,
      and the destructor that calls it, hand `free` an address `malloc` never
      returned: `base + base % align`, as `allocate` as written recorded it. */
  lemma AlignedReleaseAsWrittenFreesWrongAddress(a: AlignedAllocator, malloc: Ptr)
    requires malloc != 0 && malloc % a.align != 0
    ensures AlignedReleaseAsWritten(AlignedAllocateAsWritten(a, malloc).alloc).freed[|a.chunks|] == malloc + malloc % a.align
    ensures AlignedReleaseAsWritten(AlignedAllocateAsWritten(a, malloc).alloc).freed[|a.chunks|] != malloc
    ensures AlignedDestroyAsWritten(AlignedAllocateAsWritten(a, malloc).alloc).freed[|a.chunks|] != malloc
  {
  }

  /** With the intended release, the addresses freed are exactly the bases
      `malloc` returned, in allocation order; releasing again frees nothing. */
  lemma AlignedReleaseFreesBases(a: AlignedAllocator, malloc: Ptr)
    requires malloc != 0
    ensures AlignedRelease(AlignedAllocate(a, malloc).alloc).freed == AlignedRelease(a).freed + [malloc]
    ensures AlignedRelease(AlignedRelease(a).alloc).freed == []
  {
    var a' := AlignedAllocate(a, malloc).alloc;
    assert a'.chunks == a.chunks + [Chunk(malloc, AlignOffset(malloc, a.align))];
  }
}

=== FILE: array_buffers.dfy ===
/** The two array buffers of memory.h.

    `unique_array_buffer` owns one block through its own allocator and can only
    be moved. `shared_array_buffer` is a handle on shared metadata holding a
    reference count; the last handle to go releases the allocator. The shared
    buffer is modelled as its counting protocol only: the bytes of either kind
    of buffer, as a stream sees them, are a `seq<byte>` (see BufferStream). */
module ArrayBuffers {
  import opened Bytes
  import opened Results
  import opened Allocators

  // ---------------------------------------------------------------------------
  // unique_array_buffer

  /** `unique_array_buffer`: its allocator, the block it points at (0 once
      moved from) and that block's bytes. The capacity is |data|. */
  datatype UniqueBuffer = UniqueBuffer(alloc: HeapAllocator, ptr: Ptr, data: seq<byte>)

  /** The constructor, with a fresh default allocator whose `malloc` returned
      `malloc`: on success every one of the `capacity` bytes is zero. */
  function NewUniqueBuffer(capacity: nat, malloc: Ptr): (r: Result<UniqueBuffer>)
    ensures r.Err? <==> malloc == 0
    ensures r.Ok? ==> |r.value.data| == capacity
    ensures r.Ok? ==> forall i :: 0 <= i < capacity ==> r.value.data[i] == 0
    ensures r.Ok? ==> r.value.ptr == malloc && r.value.alloc.ptrs == [malloc]
  {
    var issued := HeapAllocate(HeapAllocator([]), malloc);
    match issued.ptr
    case Err(e) => Err(e)
    case Ok(p) => Ok(UniqueBuffer(issued.alloc, p, Zeros(capacity)))
  }

  datatype MovedBuffer = MovedBuffer(target: UniqueBuffer, source: UniqueBuffer)

  /** The move constructor: the target takes everything; the source is left
      with nullptr, capacity 0 and an allocator that tracks nothing. */
  function MoveUniqueBuffer(b: UniqueBuffer): (r: MovedBuffer)
    ensures r.target == b
    ensures r.source.ptr == 0 && |r.source.data| == 0 && r.source.alloc.ptrs == []
  {
    MovedBuffer(b, UniqueBuffer(HeapMove(b.alloc).source, 0, []))
  }

  /** A buffer after `expand`, and whether the call threw. */
  datatype Expansion = Expansion(buffer: UniqueBuffer, result: Result<()>)

  /** `expand(new_capacity)` as written, where `realloc` returned
      `realloced`. It goes through `heap_allocator::reallocate` as written: a
      failed `realloc` throws before `ptr_` and the capacity are assigned, but
      the allocator's record of the block is already nullptr. A pointer the
      allocator has no record of (as after such a failure) makes `reallocate`
      return nullptr without throwing, and the buffer then holds nullptr with
      the new capacity; its bytes are then only `fill`. */
  function ExpandUniqueBuffer(b: UniqueBuffer, newCapacity: nat, realloced: Ptr, fill: Fill): (r: Expansion)
    ensures b.ptr !in b.alloc.ptrs ==>
      r == Expansion(UniqueBuffer(b.alloc, 0, Resize([], newCapacity, fill)), Ok(()))
    ensures b.ptr in b.alloc.ptrs ==> (r.result.Err? <==> realloced == 0)
    ensures b.ptr in b.alloc.ptrs ==>
      multiset(r.buffer.alloc.ptrs) == multiset(b.alloc.ptrs) - multiset{b.ptr} + multiset{realloced}
    ensures r.result.Err? ==> r.buffer.ptr == b.ptr && r.buffer.data == b.data && 0 in r.buffer.alloc.ptrs
    ensures b.ptr in b.alloc.ptrs && r.result.Ok? ==>
      && r.buffer.ptr == realloced && r.buffer.ptr in r.buffer.alloc.ptrs
      && |r.buffer.data| == newCapacity
      && forall i :: 0 <= i < newCapacity && i < |b.data| ==> r.buffer.data[i] == b.data[i]
  {
    var issued := HeapReallocateAsWritten(b.alloc, b.ptr, realloced);
    if b.ptr !in b.alloc.ptrs then
      Expansion(UniqueBuffer(b.alloc, 0, Resize([], newCapacity, fill)), Ok(()))
    else
      var i := IndexOf(b.alloc.ptrs, b.ptr);
      MultisetUpdate(b.alloc.ptrs, i, realloced);
      assert realloced in multiset(issued.alloc.ptrs);
      match issued.ptr
      case Err(e) => Expansion(b.(alloc := issued.alloc), Err(e))
      case Ok(p) => Expansion(UniqueBuffer(issued.alloc, p, Resize(b.data, newCapacity, fill)), Ok(()))
  }

  /** Replacing one element of a sequence replaces it in the multiset. */
  lemma MultisetUpdate(s: seq<Ptr>, i: nat, x: Ptr)
    requires i < |s|
    ensures multiset(s[i := x]) == multiset(s) - multiset{s[i]} + multiset{x}
  {
    assert s == s[..i] + [s[i]] + s[i + 1..];
    assert s[i := x] == s[..i] + [x] + s[i + 1..];
  }

  /** `expand` with the intended reallocation: a failure leaves the buffer as
      it was, allocator included. */
  function ExpandUniqueBufferIntended(b: UniqueBuffer, newCapacity: nat, realloced: Ptr, fill: Fill): (r: Expansion)
    requires b.ptr in b.alloc.ptrs
    ensures r.result.Err? <==> realloced == 0
    ensures r.result.Err? ==> r.buffer == b
    ensures r.result.Ok? ==>
      && |r.buffer.data| == newCapacity
      && (forall i :: 0 <= i < newCapacity && i < |b.data| ==> r.buffer.data[i] == b.data[i])
      && r.buffer.ptr == realloced && r.buffer.ptr in r.buffer.alloc.ptrs
      && multiset(r.buffer.alloc.ptrs) == multiset(b.alloc.ptrs) - multiset{b.ptr} + multiset{realloced}
  {
    var issued := HeapReallocate(b.alloc, b.ptr, realloced);
    match issued.ptr
    case Err(e) => Expansion(b, Err(e))
    case Ok(p) =>
      assert p in multiset(issued.alloc.ptrs);
      Expansion(UniqueBuffer(issued.alloc, p, Resize(b.data, newCapacity, fill)), Ok(()))
  }

  datatype ReleasedBuffer = ReleasedBuffer(buffer: UniqueBuffer, freed: seq<Ptr>)

  /** `release()`, and equally the destructor, whose body is the same: a
      buffer that still points somewhere releases its allocator. The pointer
      itself is left dangling, as in the source. */
  function ReleaseUniqueBuffer(b: UniqueBuffer): (r: ReleasedBuffer)
    ensures b.ptr == 0 ==> r == ReleasedBuffer(b, [])
    ensures b.ptr != 0 ==> multiset(r.freed) == multiset(b.alloc.ptrs) && r.buffer.alloc.ptrs == []
  {
    if b.ptr != 0 then
      var f := HeapRelease(b.alloc);
      ReleasedBuffer(b.(alloc := f.alloc), f.freed)
    else ReleasedBuffer(b, [])
  }

  /** A manual `release()` followed by the destructor frees the block once:
      the second call finds nothing tracked. */
  lemma UniqueReleaseThenDestroyFreesOnce(b: UniqueBuffer)
    ensures ReleaseUniqueBuffer(ReleaseUniqueBuffer(b).buffer).freed == []
  {
  }

  /** A moved-from buffer frees nothing; the target frees what the original owned. */
  lemma MovedUniqueBufferFreesOnce(b: UniqueBuffer)
    requires b.ptr != 0
    ensures ReleaseUniqueBuffer(MoveUniqueBuffer(b).source).freed == []
    ensures multiset(ReleaseUniqueBuffer(MoveUniqueBuffer(b).target).freed) == multiset(b.alloc.ptrs)
  {
  }

  /** As written, an `expand` whose `realloc` fails leaks the block: the
      exception leaves the buffer pointing at it, but its record is gone. The
      next `expand` then finds no record and quietly sets the pointer to
      nullptr, and neither the buffer's release nor the allocator's destructor
      ever frees the block. */
  lemma ExpandFailureLeaks(b: UniqueBuffer, c1: nat, c2: nat, realloced: Ptr, fill: Fill)
    requires b.ptr != 0 && b.ptr in b.alloc.ptrs && NoDuplicates(b.alloc.ptrs)
    ensures ExpandUniqueBuffer(b, c1, 0, fill).result.Err?
    ensures ExpandUniqueBuffer(b, c1, 0, fill).buffer.ptr == b.ptr
    ensures b.ptr !in HeapDestroy(ExpandUniqueBuffer(b, c1, 0, fill).buffer.alloc).freed
    ensures ExpandUniqueBuffer(ExpandUniqueBuffer(b, c1, 0, fill).buffer, c2, realloced, fill).result.Ok?
    ensures ExpandUniqueBuffer(ExpandUniqueBuffer(b, c1, 0, fill).buffer, c2, realloced, fill).buffer.ptr == 0
    ensures ReleaseUniqueBuffer(ExpandUniqueBuffer(ExpandUniqueBuffer(b, c1, 0, fill).buffer, c2, realloced, fill).buffer).freed == []
  {
    HeapReallocateAsWrittenLeaks(b.alloc, b.ptr);
  }

  /** With the intended reallocation, a failed `expand` changes nothing, and
      the block is freed by the next release. */
  lemma ExpandIntendedFailureKeepsBlock(b: UniqueBuffer, c: nat, fill: Fill)
    requires b.ptr != 0 && b.ptr in b.alloc.ptrs
    ensures ExpandUniqueBufferIntended(b, c, 0, fill).result.Err?
    ensures ExpandUniqueBufferIntended(b, c, 0, fill).buffer == b
    ensures b.ptr in ReleaseUniqueBuffer(ExpandUniqueBufferIntended(b, c, 0, fill).buffer).freed
  {
    assert b.ptr in multiset(b.alloc.ptrs);
  }

  // ---------------------------------------------------------------------------
  // shared_array_buffer: the reference-counting protocol

  /** The counting part of a shared buffer's metadata: the reference count and
      how many times the allocator (and with it the data) has been released. */
  datatype SharedMeta = SharedMeta(count: int, releases: nat)

  /** A handle: live, or moved from (its metadata pointer is null, so its
      destructor does nothing). */
  datatype Handle = Live | MovedFrom

  /** The constructor: one handle, nothing released. */
  function NewShared(): (m: SharedMeta)
    ensures Consistent(m, 1)
  {
    SharedMeta(1, 0)
  }

  /** The copy constructor: refuses a buffer whose count already reached zero
      and otherwise adds one reference. */
  function CopyShared(m: SharedMeta): (r: Result<SharedMeta>)
    ensures r.Err? <==> m.count == 0
    ensures r.Ok? ==> r.value.count == m.count + 1 && r.value.releases == m.releases
  {
    if m.count == 0 then
      Err(MemoryException("shared_array_buffer::shared_array_buffer(const shared_array_buffer&)"))
    else Ok(m.(count := m.count + 1))
  }

  /** The destructor of a live handle: one reference fewer; the allocator is
      released exactly when the count reaches zero. */
  function DropShared(m: SharedMeta): (r: SharedMeta)
    ensures r.count == m.count - 1
    ensures r.releases == m.releases + (if m.count == 1 then 1 else 0)
  {
    var c := m.count - 1;
    if c == 0 then SharedMeta(c, m.releases + 1) else m.(count := c)
  }

  datatype MovedHandle = MovedHandle(target: Handle, source: Handle)

  /** The move constructor: the handle changes hands and the count is untouched. */
  function MoveHandle(h: Handle): (r: MovedHandle)
    ensures r.target == h && r.source == MovedFrom
  {
    MovedHandle(h, MovedFrom)
  }

  /** The destructor of any handle. */
  function DropHandle(m: SharedMeta, h: Handle): (r: SharedMeta)
    ensures h == MovedFrom ==> r == m
    ensures h == Live ==> r.count == m.count - 1
  {
    if h == MovedFrom then m else DropShared(m)
  }

  /** The protocol's invariant when `live` handles exist: the count equals the
      number of live handles, and the allocator has been released once if none
      is left and never otherwise. */
  predicate Consistent(m: SharedMeta, live: nat) {
    m.count == live && m.releases == (if live == 0 then 1 else 0)
  }

  /** Copying a live handle keeps the invariant with one more handle. */
  lemma CopyKeepsConsistent(m: SharedMeta, live: nat)
    requires Consistent(m, live) && live >= 1
    ensures CopyShared(m).Ok? && Consistent(CopyShared(m).value, live + 1)
  {
  }

  /** Dropping a live handle keeps the invariant with one handle fewer; the
      last drop is the one that releases. */
  lemma DropKeepsConsistent(m: SharedMeta, live: nat)
    requires Consistent(m, live) && live >= 1
    ensures Consistent(DropShared(m), live - 1)
  {
  }

  /** Moving a handle and then dropping the moved-from one changes nothing. */
  lemma MoveKeepsCount(m: SharedMeta, h: Handle)
    ensures DropHandle(m, MoveHandle(h).source) == m
    ensures MoveHandle(h).target == h
  {
  }

  /** Once the last handle is gone, copying fails instead of handing out a
      dangling handle. */
  lemma CopyAfterReleaseFails(m: SharedMeta)
    requires Consistent(m, 0)
    ensures CopyShared(m).Err?
  {
  }

  /** A temporary copy that is dropped again leaves the metadata as it was:
      what `post` does for each handler. */
  lemma CopyThenDropRestores(m: SharedMeta)
    requires m.count >= 1
    ensures CopyShared(m).Ok? && DropShared(CopyShared(m).value) == m
  {
  }

  /** `n` copies in a row. */
  function CopySharedN(m: SharedMeta, n: nat): Result<SharedMeta>
  {
    if n == 0 then Ok(m)
    else match CopySharedN(m, n - 1)
      case Err(e) => Err(e)
      case Ok(m') => CopyShared(m')
  }

  /** `n` drops in a row. */
  function DropSharedN(m: SharedMeta, n: nat): SharedMeta
  {
    if n == 0 then m else DropShared(DropSharedN(m, n - 1))
  }

  lemma {:induction false} CopySharedNCounts(m: SharedMeta, n: nat)
    requires m.count >= 1
    ensures CopySharedN(m, n) == Ok(SharedMeta(m.count + n, m.releases))
  {
    if n > 0 {
      CopySharedNCounts(m, n - 1);
    }
  }

  lemma {:induction false} DropSharedNCounts(m: SharedMeta, n: nat)
    requires m.count > n
    ensures DropSharedN(m, n) == SharedMeta(m.count - n, m.releases)
  {
    if n > 0 {
      DropSharedNCounts(m, n - 1);
    }
  }

  /** Making `n` copies of a new shared buffer and dropping `n` handles leaves
      one live handle and nothing released; dropping that last one releases
      the allocator exactly once, after which copying fails. */
  lemma SharedLifecycle(n: nat)
    ensures CopySharedN(NewShared(), n).Ok?
    ensures DropSharedN(CopySharedN(NewShared(), n).value, n) == SharedMeta(1, 0)
    ensures DropShared(DropSharedN(CopySharedN(NewShared(), n).value, n)) == SharedMeta(0, 1)
    ensures CopyShared(DropShared(DropSharedN(CopySharedN(NewShared(), n).value, n))).Err?
  {
    CopySharedNCounts(NewShared(), n);
    DropSharedNCounts(SharedMeta(1 + n, 0), n);
  }
}

=== FILE: buffer_stream.dfy ===
/** `buffer_stream` from memory.h: a cursor over a buffer.

    The stream is modelled together with the bytes of the buffer it borrows;
    the capacity is |buf|. Positions are unbounded naturals and sums of a
    position and a size are computed without wrap-around. The source's
    `size_t` sums wrap at 2^64; that is written out in `back`, and in
    `GetPrefixedAsWritten`, where the size added is a length read from the
    data and can itself be close to 2^64. The read/write lock calls around
    each access are left out. */
module BufferStream {
  import opened Bytes
  import opened Results

  datatype Stream = Stream(buf: seq<byte>, pos: nat, eof: bool, autoExpand: bool)

  /** A read or a write into a byte region, with its success flag. */
  datatype Copied = Copied(bytes: seq<byte>, ok: bool)

  /** A stream after a read, with what was read. */
  datatype Got = Got(s: Stream, value: seq<byte>)

  /** A stream after `get_as<T>()`, which may throw. */
  datatype GotAs = GotAs(s: Stream, value: Result<seq<byte>>)

  /** A stream after `get(dest, size)`, with its signed return value. */
  datatype GotCount = GotCount(s: Stream, count: int, value: seq<byte>)

  /** A stream after an append, with its success flag. */
  datatype Put = Put(s: Stream, ok: bool)

  /** The constructor: position 0, no end-of-file, no auto-expansion. */
  function Open(buf: seq<byte>): (s: Stream)
    ensures s.buf == buf && s.pos == 0 && !s.eof && !s.autoExpand
  {
    Stream(buf, 0, false, false)
  }

  // ---------------------------------------------------------------------------
  // Bounds-checked access

  /** `reference(offset, size)`: a view of `size` bytes, or nullptr when the
      range does not fit in the capacity. */
  function Reference(buf: seq<byte>, offset: nat, size: nat): (r: Option<seq<byte>>)
    ensures r.None? <==> offset + size > |buf|
    ensures r.Some? ==> |r.value| == size
    ensures r.Some? ==> forall i :: 0 <= i < size ==> r.value[i] == buf[offset + i]
  {
    if offset + size > |buf| then None else Some(buf[offset..offset + size])
  }

  /** `read(dest, offset, size)`: copies `size` bytes into the front of `dest`,
      which must have room for them. A failed read leaves `dest` untouched. */
  function Read(buf: seq<byte>, dest: seq<byte>, offset: nat, size: nat): (r: Copied)
    requires size <= |dest|
    ensures r.ok <==> offset + size <= |buf|
    ensures |r.bytes| == |dest|
    ensures !r.ok ==> r.bytes == dest
    ensures r.ok ==> forall i :: 0 <= i < |dest| ==> r.bytes[i] == if i < size then buf[offset + i] else dest[i]
  {
    match Reference(buf, offset, size)
    case None => Copied(dest, false)
    case Some(v) => Copied(v + dest[size..], true)
  }

  /** `write(src, offset, size)`: replaces bytes [offset, offset + |src|) with
      `src`; a write that does not fit changes nothing. */
  function Write(buf: seq<byte>, src: seq<byte>, offset: nat): (r: Copied)
    ensures r.ok <==> offset + |src| <= |buf|
    ensures |r.bytes| == |buf|
    ensures !r.ok ==> r.bytes == buf
    ensures r.ok ==> forall i :: 0 <= i < |buf| ==>
      r.bytes[i] == if offset <= i < offset + |src| then src[i - offset] else buf[i]
  {
    if offset + |src| > |buf| then Copied(buf, false)
    else Copied(buf[..offset] + src + buf[offset + |src|..], true)
  }

  /** Reading back a successful write yields what was written. */
  lemma ReadAfterWrite(buf: seq<byte>, src: seq<byte>, offset: nat, dest: seq<byte>)
    requires Write(buf, src, offset).ok && |dest| == |src|
    ensures Read(Write(buf, src, offset).bytes, dest, offset, |src|) == Copied(src, true)
  {
  }

  /** Writing back what was just read changes nothing. */
  lemma WriteWhatWasRead(buf: seq<byte>, offset: nat, size: nat)
    requires offset + size <= |buf|
    ensures Write(buf, Read(buf, Zeros(size), offset, size).bytes, offset) == Copied(buf, true)
  {
    assert buf[..offset] + buf[offset..offset + size] + buf[offset + size..] == buf;
  }

  // ---------------------------------------------------------------------------
  // Reading at the cursor

  /** `get<T>()` for a `width`-byte T: the position always advances by
      `width`; a read past the capacity yields zero and sets end-of-file. */
  function GetFixed(s: Stream, width: nat): (r: Got)
    ensures r.s.pos == s.pos + width
    ensures r.s.buf == s.buf && r.s.autoExpand == s.autoExpand
    ensures |r.value| == width
    ensures s.pos + width <= |s.buf| ==>
      && r.value == s.buf[s.pos..s.pos + width]
      && (r.s.eof <==> s.eof || s.pos + width == |s.buf|)
    ensures s.pos + width > |s.buf| ==> r.value == Zeros(width) && r.s.eof
  {
    var curr := s.pos + width;
    // The source moves the cursor before checking the bounds.
    var rd := Read(s.buf, Zeros(width), curr - width, width);
    Got(Stream(s.buf, curr, s.eof || curr == |s.buf| || !rd.ok, s.autoExpand), rd.bytes)
  }

  /** `get_as<T>()` for a `width`-byte T: the same cursor movement as
      `get<T>()`, but a read past the capacity throws instead of yielding zero. */
  function GetAsFixed(s: Stream, width: nat): (r: GotAs)
    ensures r.s == GetFixed(s, width).s
    ensures r.value.Err? <==> s.pos + width > |s.buf|
    ensures r.value.Ok? ==> r.value.value == GetFixed(s, width).value
  {
    var curr := s.pos + width;
    var eof := s.eof || curr == |s.buf|;
    match Reference(s.buf, curr - width, width)
    case None => GotAs(Stream(s.buf, curr, true, s.autoExpand), Err(MemoryException("buffer_stream::get_as<T>()")))
    case Some(v) => GotAs(Stream(s.buf, curr, eof, s.autoExpand), Ok(v))
  }

  /** `get(dest, size)`: -1 once end-of-file is set; otherwise copies up to
      `size` bytes, clamped at the capacity, where it sets end-of-file. With
      the cursor already past the capacity (possible after `clear_eof`) the
      source's unsigned remainder wraps to a negative count and its copy is
      undefined; the model copies nothing then. */
  function GetBytes(s: Stream, size: nat): (r: GotCount)
    ensures s.eof ==> r == GotCount(s, -1, [])
    ensures !s.eof ==> r.s.buf == s.buf && r.s.autoExpand == s.autoExpand
    ensures !s.eof ==> (r.s.eof <==> s.pos + size >= |s.buf|)
    ensures !s.eof && s.pos + size < |s.buf| ==>
      r.count == size && r.value == s.buf[s.pos..s.pos + size] && r.s.pos == s.pos + size
    ensures !s.eof && s.pos + size >= |s.buf| ==> r.s.pos == |s.buf| && r.count == |s.buf| - s.pos
    ensures !s.eof && s.pos <= |s.buf| <= s.pos + size ==> r.value == s.buf[s.pos..]
  {
    if s.eof then GotCount(s, -1, [])
    else if s.pos + size >= |s.buf| then
      var remain := |s.buf| - s.pos;
      GotCount(s.(pos := |s.buf|, eof := true), remain, if remain >= 0 then s.buf[s.pos..] else [])
    else GotCount(s.(pos := s.pos + size), size, s.buf[s.pos..s.pos + size])
  }

  /** `strlen` from `from`, stopping at the capacity. */
  function CStringLength(buf: seq<byte>, from: nat): (n: nat)
    decreases |buf| - from
    ensures from >= |buf| ==> n == 0
    ensures from < |buf| ==> from + n <= |buf|
    ensures forall i :: from <= i < from + n ==> buf[i] != 0
    ensures from + n < |buf| ==> buf[from + n] == 0
  {
    if from >= |buf| || buf[from] == 0 then 0 else 1 + CStringLength(buf, from + 1)
  }

  /** `get()`: the bytes from the cursor up to the next zero byte. The zero is
      not consumed: the cursor stops on it. */
  function GetString(s: Stream): (r: Got)
    ensures r.s.buf == s.buf && r.s.autoExpand == s.autoExpand
    ensures forall i :: 0 <= i < |r.value| ==> r.value[i] != 0
    ensures r.s.pos == s.pos + |r.value|
    ensures r.s.pos < |s.buf| ==> s.buf[r.s.pos] == 0
    ensures s.pos <= |s.buf| ==> r.s.pos <= |s.buf| && r.value == s.buf[s.pos..r.s.pos]
    ensures r.s.eof <==> s.eof || r.s.pos == |s.buf| || s.pos > |s.buf|
  {
    var length := CStringLength(s.buf, s.pos);
    var curr := s.pos + length;
    match Reference(s.buf, s.pos, length)
    case None => Got(Stream(s.buf, curr, true, s.autoExpand), [])
    case Some(v) => Got(Stream(s.buf, curr, s.eof || curr == |s.buf|, s.autoExpand), v)
  }

  /** `get_as()`: an 8-byte length, then a view of that many bytes. If either
      does not fit, the view is empty, end-of-file is set and the cursor stays. */
  function GetPrefixed(s: Stream): (r: Got)
    ensures r.s.buf == s.buf && r.s.autoExpand == s.autoExpand
    ensures PrefixedFits(s.buf, s.pos) ==>
      && r.value == s.buf[s.pos + 8..s.pos + 8 + DecodeLE(s.buf[s.pos..s.pos + 8])]
      && r.s.pos == s.pos + 8 + |r.value|
      && r.s.eof == s.eof
    ensures !PrefixedFits(s.buf, s.pos) ==> r.value == [] && r.s.pos == s.pos && r.s.eof
  {
    match Reference(s.buf, s.pos, 8)
    case None => Got(s.(eof := true), [])
    case Some(lengthBytes) =>
      var length := DecodeLE(lengthBytes);
      match Reference(s.buf, s.pos + 8, length)
      case None => Got(s.(eof := true), [])
      case Some(data) => Got(s.(pos := s.pos + 8 + length), data)
  }

  /** A view handed out by `get_as()`: where it starts and how long it is. */
  datatype Viewed = Viewed(s: Stream, offset: nat, length: nat)

  /** The length an 8-byte prefix at `pos` declares. */
  function PrefixLength(buf: seq<byte>, pos: nat): nat
    requires pos + 8 <= |buf|
  {
    DecodeLE(buf[pos..pos + 8])
  }

  /** `get_as()` as written: the bounds check on the data adds the position,
      8 and the length read from the data in `size_t`, which wraps at 2^64.
      A length near 2^64 therefore passes the check, the view runs past the
      buffer, and the cursor wraps back. */
  function GetPrefixedAsWritten(s: Stream): (r: Viewed)
    ensures r.s.buf == s.buf && r.s.autoExpand == s.autoExpand
    ensures s.pos + 8 > |s.buf| ==> r == Viewed(s.(eof := true), 0, 0)
    ensures s.pos + 8 <= |s.buf| && (s.pos + 8 + PrefixLength(s.buf, s.pos)) % SIZE_LIMIT > |s.buf| ==>
      r == Viewed(s.(eof := true), 0, 0)
    ensures s.pos + 8 <= |s.buf| && (s.pos + 8 + PrefixLength(s.buf, s.pos)) % SIZE_LIMIT <= |s.buf| ==>
      && r.offset == s.pos + 8 && r.length == PrefixLength(s.buf, s.pos)
      && r.s.pos == (s.pos + 8 + r.length) % SIZE_LIMIT && r.s.eof == s.eof
  {
    match Reference(s.buf, s.pos, 8)
    case None => Viewed(s.(eof := true), 0, 0)
    case Some(lengthBytes) =>
      var length := DecodeLE(lengthBytes);
      var end := (s.pos + 8 + length) % SIZE_LIMIT;
      if end > |s.buf| then Viewed(s.(eof := true), 0, 0)
      else Viewed(s.(pos := end), s.pos + 8, length)
  }

  /** Finding: a 16-byte buffer whose first 8 bytes declare 2^64 - 8 bytes.
      As written, `get_as()` hands out a view of 2^64 - 8 bytes from offset 8,
      far past the 16-byte buffer, and the cursor wraps back to 0 with
      end-of-file unset. The intended `get_as()` returns an empty view and
      sets end-of-file. */
  lemma GetPrefixedLengthWraps()
    ensures var buf := EncodeLE(SIZE_LIMIT - 8, 8) + Zeros(8);
      && GetPrefixedAsWritten(Open(buf)).offset == 8
      && GetPrefixedAsWritten(Open(buf)).length == SIZE_LIMIT - 8
      && GetPrefixedAsWritten(Open(buf)).offset + GetPrefixedAsWritten(Open(buf)).length > |buf|
      && GetPrefixedAsWritten(Open(buf)).s.pos == 0 && !GetPrefixedAsWritten(Open(buf)).s.eof
      && GetPrefixed(Open(buf)).value == [] && GetPrefixed(Open(buf)).s.eof
  {
    var buf := EncodeLE(SIZE_LIMIT - 8, 8) + Zeros(8);
    Pow256Values();
    DecodeEncodeLE(SIZE_LIMIT - 8, 8);
    assert buf[0..8] == EncodeLE(SIZE_LIMIT - 8, 8);
    assert PrefixLength(buf, 0) == SIZE_LIMIT - 8;
  }

  /** Where no sum wraps, `get_as()` as written and as intended agree: the
      same cursor and flags, and a view of the same bytes. */
  lemma GetPrefixedAsWrittenAgrees(s: Stream)
    requires s.pos + 8 <= |s.buf| && s.pos + 8 + PrefixLength(s.buf, s.pos) < SIZE_LIMIT
    ensures GetPrefixedAsWritten(s).s == GetPrefixed(s).s
    ensures GetPrefixed(s).s.pos != s.pos ==>
      GetPrefixed(s).value == s.buf[GetPrefixedAsWritten(s).offset..GetPrefixedAsWritten(s).offset + GetPrefixedAsWritten(s).length]
  {
  }

  /** The intended `get_as()` never moves the cursor back and, from inside
      the buffer, never past its end: every view lies within the buffer. */
  lemma GetPrefixedStaysInBuffer(s: Stream)
    requires s.pos <= |s.buf|
    ensures s.pos <= GetPrefixed(s).s.pos <= |s.buf|
    ensures s.pos + |GetPrefixed(s).value| <= |s.buf|
  {
  }

  /** Both the length and the data of a prefixed view at `pos` fit. */
  predicate PrefixedFits(buf: seq<byte>, pos: nat) {
    pos + 8 <= |buf| && pos + 8 + DecodeLE(buf[pos..pos + 8]) <= |buf|
  }

  // ---------------------------------------------------------------------------
  // Appending at the cursor

  /** The buffer as an append at `s` leaves it before writing: grown to the new
      end when auto-expansion is on and the end reaches the capacity. */
  function Expanded(s: Stream, curr: nat, fill: Fill): (b: seq<byte>)
    ensures |b| == if s.autoExpand && curr >= |s.buf| then curr else |s.buf|
    ensures forall i :: 0 <= i < |s.buf| && i < |b| ==> b[i] == s.buf[i]
  {
    if s.autoExpand && curr >= |s.buf| then Resize(s.buf, curr, fill) else s.buf
  }

  /** `append<T>(t)` and `append(src, size)`: writes `src` at the cursor,
      growing the buffer first when auto-expansion is on. The cursor advances
      even when the write fails. */
  function AppendRaw(s: Stream, src: seq<byte>, fill: Fill): (r: Put)
    ensures r.s.pos == s.pos + |src| && r.s.autoExpand == s.autoExpand
    ensures r.ok <==> s.autoExpand || s.pos + |src| <= |s.buf|
    ensures s.autoExpand ==> |r.s.buf| == if s.pos + |src| >= |s.buf| then s.pos + |src| else |s.buf|
    ensures !s.autoExpand ==> |r.s.buf| == |s.buf|
    ensures !r.ok ==> r.s.buf == s.buf && r.s.eof
    ensures r.ok ==> r.s.buf[s.pos..s.pos + |src|] == src
    ensures r.ok ==> forall i :: 0 <= i < |s.buf| && !(s.pos <= i < s.pos + |src|) ==> r.s.buf[i] == s.buf[i]
    ensures r.ok && s.pos <= |s.buf| ==> r.s.buf[..r.s.pos] == s.buf[..s.pos] + src
    ensures r.s.eof <==> s.eof || !r.ok || s.pos + |src| == |r.s.buf|
  {
    var curr := s.pos + |src|;
    var buf := Expanded(s, curr, fill);
    var w := Write(buf, src, curr - |src|);
    var r := Put(Stream(w.bytes, curr, s.eof || curr == |buf| || !w.ok, s.autoExpand), w.ok);
    assert r.ok && s.pos <= |s.buf| ==> r.s.buf[..r.s.pos] == s.buf[..s.pos] + src by {
      if r.ok && s.pos <= |s.buf| {
        assert forall i :: 0 <= i < s.pos ==> r.s.buf[i] == s.buf[i];
      }
    }
    r
  }

  /** Two adjacent writes are one write of both parts. */
  lemma WriteAdjacent(buf: seq<byte>, a: seq<byte>, b: seq<byte>, offset: nat)
    requires offset + |a| + |b| <= |buf|
    ensures Write(Write(buf, a, offset).bytes, b, offset + |a|) == Write(buf, a + b, offset)
  {
    var w := Write(Write(buf, a, offset).bytes, b, offset + |a|);
    var u := Write(buf, a + b, offset);
    assert w.bytes == u.bytes by {
      forall i | 0 <= i < |buf|
        ensures w.bytes[i] == u.bytes[i]
      {
        if offset <= i < offset + |a| {
          assert (a + b)[i - offset] == a[i - offset];
        } else if offset + |a| <= i < offset + |a| + |b| {
          assert (a + b)[i - offset] == b[i - offset - |a|];
        }
      }
    }
  }

  /** `append(view)`: an 8-byte length, then the bytes, with the same growth
      rule. When it succeeds it is the raw append of the length and the bytes;
      when the bytes do not fit, the length may already have been written. */
  function AppendPrefixed(s: Stream, v: seq<byte>, fill: Fill): (r: Put)
    ensures r.s.pos == s.pos + 8 + |v| && r.s.autoExpand == s.autoExpand
    ensures r.ok <==> s.autoExpand || s.pos + 8 + |v| <= |s.buf|
    ensures r.ok ==> r == AppendRaw(s, EncodeLE(|v|, 8) + v, fill)
    ensures !r.ok ==> r.s.eof
    ensures !r.ok && s.pos + 8 > |s.buf| ==> r.s.buf == s.buf
    ensures !r.ok && s.pos + 8 <= |s.buf| ==> r.s.buf == Write(s.buf, EncodeLE(|v|, 8), s.pos).bytes
  {
    var length := |v| + 8;
    var curr := s.pos + length;
    var buf := Expanded(s, curr, fill);
    var eof := s.eof || curr == |buf|;
    var w1 := Write(buf, EncodeLE(|v|, 8), curr - length);
    if !w1.ok then Put(Stream(w1.bytes, curr, true, s.autoExpand), false)
    else
      var w2 := Write(w1.bytes, v, curr - |v|);
      if w2.ok then
        WriteAdjacent(buf, EncodeLE(|v|, 8), v, s.pos);
        var src := EncodeLE(|v|, 8) + v;
        assert |src| == length;
        assert Write(buf, src, curr - |src|) == w2;
        Put(Stream(w2.bytes, curr, eof, s.autoExpand), true)
      else Put(Stream(w2.bytes, curr, true, s.autoExpand), false)
  }

  // ---------------------------------------------------------------------------
  // Moving the cursor and the flags

  /** `rewind()`: back to the start. End-of-file is NOT cleared. */
  function Rewind(s: Stream): (r: Stream)
    ensures r.pos == 0 && r.buf == s.buf && r.eof == s.eof && r.autoExpand == s.autoExpand
  {
    s.(pos := 0)
  }

  /** `back(len)`: the cursor moves back, wrapping around 2^64 as `size_t`
      does; end-of-file is cleared when the cursor lands inside the capacity. */
  function Back(s: Stream, len: uint64): (r: Stream)
    ensures len <= s.pos ==> r.pos == s.pos - len
    ensures len > s.pos ==> r.pos == s.pos + SIZE_LIMIT - len
    ensures r.eof <==> s.eof && r.pos >= |s.buf|
    ensures r.buf == s.buf && r.autoExpand == s.autoExpand
  {
    var p := if len <= s.pos then s.pos - len else s.pos + SIZE_LIMIT - len;
    s.(pos := p, eof := if p < |s.buf| then false else s.eof)
  }

  /** `forward(len)`: the cursor moves on; end-of-file is set when it reaches
      the capacity. */
  function Forward(s: Stream, len: nat): (r: Stream)
    ensures r.pos == s.pos + len
    ensures r.eof <==> s.eof || r.pos >= |s.buf|
    ensures r.buf == s.buf && r.autoExpand == s.autoExpand
  {
    var p := s.pos + len;
    s.(pos := p, eof := s.eof || p >= |s.buf|)
  }

  /** `set_auto_expand(enable)`: only the flag changes. */
  function SetAutoExpand(s: Stream, enable: bool): (r: Stream)
    ensures r.autoExpand == enable && r.buf == s.buf && r.pos == s.pos && r.eof == s.eof
  {
    s.(autoExpand := enable)
  }

  /** `clear_eof()`: only the flag changes. */
  function ClearEof(s: Stream): (r: Stream)
    ensures !r.eof && r.buf == s.buf && r.pos == s.pos && r.autoExpand == s.autoExpand
  {
    s.(eof := false)
  }

  // ---------------------------------------------------------------------------
  // Round trips

  /** A fixed-width append that succeeded is read back by `get<T>()` after
      stepping back over it. */
  lemma AppendThenGetFixed(s: Stream, src: seq<byte>, fill: Fill)
    requires s.autoExpand || s.pos + |src| <= |s.buf|
    requires |src| < SIZE_LIMIT
    ensures GetFixed(Back(AppendRaw(s, src, fill).s, |src|), |src|).value == src
    ensures GetFixed(Back(AppendRaw(s, src, fill).s, |src|), |src|).s.pos == s.pos + |src|
  {
    var t := AppendRaw(s, src, fill).s;
    assert Back(t, |src|).pos == s.pos;
  }

  /** With auto-expansion on, an append at the start of the buffer always
      succeeds, leaves room for the value, and is read back after `rewind()`. */
  lemma AppendThenRewindThenGet(s: Stream, src: seq<byte>, fill: Fill)
    requires s.autoExpand && s.pos == 0
    ensures AppendRaw(s, src, fill).ok
    ensures |AppendRaw(s, src, fill).s.buf| >= |src|
    ensures GetFixed(Rewind(AppendRaw(s, src, fill).s), |src|).value == src
  {
  }

  /** A length-prefixed append that succeeded is read back by `get_as()`
      after stepping back over it, which then ends where the append ended. */
  lemma AppendThenGetPrefixed(s: Stream, v: seq<byte>, fill: Fill)
    requires s.autoExpand || s.pos + 8 + |v| <= |s.buf|
    requires 8 + |v| < SIZE_LIMIT
    ensures GetPrefixed(Back(AppendPrefixed(s, v, fill).s, 8 + |v|)).value == v
    ensures GetPrefixed(Back(AppendPrefixed(s, v, fill).s, 8 + |v|)).s.pos == AppendPrefixed(s, v, fill).s.pos
  {
    var src := EncodeLE(|v|, 8) + v;
    var t := AppendRaw(s, src, fill).s;
    assert t == AppendPrefixed(s, v, fill).s;
    var b := Back(t, 8 + |v|);
    assert b.pos == s.pos && b.buf == t.buf;
    SliceParts(t.buf, s.pos, EncodeLE(|v|, 8), v);
    GetPrefixedAt(b, v);
  }

  /** `get_as()` at a length-prefixed value reads that value and moves past it. */
  lemma GetPrefixedAt(b: Stream, v: seq<byte>)
    requires |v| < SIZE_LIMIT && b.pos + 8 + |v| <= |b.buf|
    requires b.buf[b.pos..b.pos + 8] == EncodeLE(|v|, 8) && b.buf[b.pos + 8..b.pos + 8 + |v|] == v
    ensures GetPrefixed(b).value == v && GetPrefixed(b).s.pos == b.pos + 8 + |v|
  {
    DecodeLengthPrefix(b.buf[b.pos..b.pos + 8], |v|);
    assert Reference(b.buf, b.pos, 8) == Some(b.buf[b.pos..b.pos + 8]);
    assert Reference(b.buf, b.pos + 8, |v|) == Some(v);
  }

  /** An 8-byte length prefix decodes to the length it encodes. */
  lemma DecodeLengthPrefix(prefix: seq<byte>, n: nat)
    requires n < SIZE_LIMIT && prefix == EncodeLE(n, 8)
    ensures DecodeLE(prefix) == n
  {
    Pow256Values();
    DecodeEncodeLE(n, 8);
  }

  /** The two halves of a slice holding `x + y`. */
  lemma SliceParts(buf: seq<byte>, lo: nat, x: seq<byte>, y: seq<byte>)
    requires lo + |x| + |y| <= |buf| && buf[lo..lo + |x| + |y|] == x + y
    ensures buf[lo..lo + |x|] == x && buf[lo + |x|..lo + |x| + |y|] == y
  {
    assert buf[lo..lo + |x|] == (x + y)[..|x|];
    assert buf[lo + |x|..lo + |x| + |y|] == (x + y)[|x|..];
  }

  /** A raw append that succeeded is read back by `get(dest, size)` after
      stepping back over it. */
  lemma AppendThenGetBytes(s: Stream, src: seq<byte>, fill: Fill)
    requires AppendRaw(s, src, fill).ok && s.pos <= |s.buf|
    requires 0 < |src| < SIZE_LIMIT
    ensures GetBytes(Back(AppendRaw(s, src, fill).s, |src|), |src|).count == |src|
    ensures GetBytes(Back(AppendRaw(s, src, fill).s, |src|), |src|).value == src
  {
    var t := AppendRaw(s, src, fill).s;
    var b := Back(t, |src|);
    assert b.pos == s.pos && !b.eof;
    assert t.buf[s.pos..s.pos + |src|] == src;
  }

  /** A zero-free string appended with its terminating zero is read back by
      `get()` after stepping back over it, and the cursor stops on the zero. */
  lemma AppendThenGetString(s: Stream, v: seq<byte>, fill: Fill)
    requires forall i :: 0 <= i < |v| ==> v[i] != 0
    requires AppendRaw(s, v + [0], fill).ok && s.pos <= |s.buf|
    requires |v| + 1 < SIZE_LIMIT
    ensures GetString(Back(AppendRaw(s, v + [0], fill).s, |v| + 1)).value == v
    ensures GetString(Back(AppendRaw(s, v + [0], fill).s, |v| + 1)).s.pos == s.pos + |v|
  {
    var t := AppendRaw(s, v + [0], fill).s;
    assert t.buf[s.pos..s.pos + |v + [0]|] == v + [0];
    var b := Back(t, |v| + 1);
    assert b.pos == s.pos && b.buf == t.buf;
    SliceParts(t.buf, s.pos, v, [0]);
    GetStringAt(b, v);
  }

  /** `get()` at a zero-free string followed by a zero returns the string and
      leaves the cursor on the zero. */
  lemma GetStringAt(b: Stream, v: seq<byte>)
    requires b.pos + |v| < |b.buf| && b.buf[b.pos..b.pos + |v|] == v && b.buf[b.pos + |v|] == 0
    requires forall i :: 0 <= i < |v| ==> v[i] != 0
    ensures GetString(b).value == v && GetString(b).s.pos == b.pos + |v|
  {
    CStringLengthAt(b.buf, b.pos, v);
  }

  /** `strlen` at a zero-free string followed by a zero is its length. */
  lemma {:induction false} CStringLengthAt(buf: seq<byte>, from: nat, v: seq<byte>)
    requires from + |v| < |buf| && buf[from..from + |v|] == v && buf[from + |v|] == 0
    requires forall i :: 0 <= i < |v| ==> v[i] != 0
    ensures CStringLength(buf, from) == |v|
    decreases |v|
  {
    if |v| > 0 {
      assert buf[from] == v[0];
      assert buf[from + 1..from + 1 + |v[1..]|] == v[1..];
      CStringLengthAt(buf, from + 1, v[1..]);
    }
  }

  /** `back(n)` undoes `forward(n)`: the cursor returns, and end-of-file is
      set afterwards exactly when the cursor sits at or past the capacity. */
  lemma ForwardThenBack(s: Stream, n: nat)
    requires n < SIZE_LIMIT
    ensures Back(Forward(s, n), n).pos == s.pos
    ensures Back(Forward(s, n), n).buf == s.buf && Back(Forward(s, n), n).autoExpand == s.autoExpand
    ensures Back(Forward(s, n), n).eof <==> s.pos >= |s.buf|
  {
  }

  /** `get(dest, size)` refuses to read at end-of-file; after `clear_eof()`
      it reads again from the cursor, up to `size` bytes or the capacity. */
  lemma ClearEofThenGetBytes(s: Stream, n: nat)
    requires s.pos <= |s.buf|
    ensures s.eof ==> GetBytes(s, n).count == -1
    ensures GetBytes(ClearEof(s), n).count == if s.pos + n < |s.buf| then n else |s.buf| - s.pos
    ensures GetBytes(ClearEof(s), n).value == if s.pos + n < |s.buf| then s.buf[s.pos..s.pos + n] else s.buf[s.pos..]
  {
  }
}

=== FILE: bytes.dfy ===
/** Bytes, the fixed-width integers the buffers carry, and the contents of
    freshly allocated memory.

    The C++ code copies integers into buffers with `memcpy`, so their layout is
    the host's. The model fixes it to little-endian two's complement, the layout
    of the LP64 x86-64 hosts the code targets. */
module Bytes {

  type byte = x: int | 0 <= x < 0x100

  /** 2^64: one past the largest `size_t`. */
  const SIZE_LIMIT: int := 0x1_0000_0000_0000_0000

  type int32 = x: int | -0x8000_0000 <= x < 0x8000_0000
  type int64 = x: int | -0x8000_0000_0000_0000 <= x < 0x8000_0000_0000_0000
  type uint64 = x: int | 0 <= x < 0x1_0000_0000_0000_0000

  /** What `malloc` or `realloc` leaves in bytes nobody has written yet, by
      absolute offset in the buffer. The C++ code never initialises them, so
      every property that could depend on them is stated for all fills. */
  type Fill = nat -> byte

  function Pow256(n: nat): (r: nat)
    ensures r >= 1
  {
    if n == 0 then 1 else 256 * Pow256(n - 1)
  }

  lemma Pow256Values()
    ensures Pow256(4) == 0x1_0000_0000
    ensures Pow256(8) == SIZE_LIMIT
  {
  }

  function Zeros(n: nat): (r: seq<byte>)
    ensures |r| == n
    ensures forall i :: 0 <= i < n ==> r[i] == 0
  {
    seq(n, _ => 0)
  }

  /** The low `n` bytes of `x`, least significant first: what `memcpy` of an
      `n`-byte unsigned integer writes on a little-endian host. Bits above the
      width are dropped, as a narrowing cast does. */
  function EncodeLE(x: nat, n: nat): (r: seq<byte>)
    ensures |r| == n
  {
    if n == 0 then [] else [x % 256] + EncodeLE(x / 256, n - 1)
  }

  /** The unsigned integer whose little-endian bytes are `bs`. */
  function DecodeLE(bs: seq<byte>): (r: nat)
    ensures r < Pow256(|bs|)
  {
    if |bs| == 0 then 0 else bs[0] + 256 * DecodeLE(bs[1..])
  }

  lemma {:induction false} DecodeEncodeLE(x: nat, n: nat)
    requires x < Pow256(n)
    ensures DecodeLE(EncodeLE(x, n)) == x
  {
    if n > 0 {
      DecodeEncodeLE(x / 256, n - 1);
      assert EncodeLE(x, n)[1..] == EncodeLE(x / 256, n - 1);
    }
  }

  lemma {:induction false} EncodeDecodeLE(bs: seq<byte>)
    ensures EncodeLE(DecodeLE(bs), |bs|) == bs
  {
    if |bs| > 0 {
      EncodeDecodeLE(bs[1..]);
      var x := DecodeLE(bs);
      assert x % 256 == bs[0];
      assert x / 256 == DecodeLE(bs[1..]);
      assert bs == [bs[0]] + bs[1..];
    }
  }

  /** Decoding a concatenation: the second part supplies the high digits. */
  lemma {:induction false} DecodeLEAppend(a: seq<byte>, b: seq<byte>)
    ensures DecodeLE(a + b) == DecodeLE(a) + Pow256(|a|) * DecodeLE(b)
  {
    if |a| > 0 {
      DecodeLEAppend(a[1..], b);
      assert (a + b)[1..] == a[1..] + b;
      assert (a + b)[0] == a[0];
      DigitStep(a[0], DecodeLE(a[1..]), Pow256(|a| - 1), DecodeLE(b));
    } else {
      assert a + b == b;
    }
  }

  /** One more low digit in front of a two-part number. */
  lemma DigitStep(a0: int, rest: int, p: int, d: int)
    ensures a0 + 256 * (rest + p * d) == (a0 + 256 * rest) + (256 * p) * d
  {
  }

  /** `x` is representable as an `n`-byte two's-complement integer. */
  predicate FitsSigned(x: int, n: nat) {
    0 <= Pow256(n) + 2 * x && 2 * x < Pow256(n)
  }

  lemma FixedWidthRanges(x: int32, y: int64)
    ensures FitsSigned(x, 4) && FitsSigned(y, 8)
  {
    Pow256Values();
  }

  /** The `n` bytes of the signed integer `x`: two's complement, little-endian. */
  function EncodeInt(x: int, n: nat): (r: seq<byte>)
    requires FitsSigned(x, n)
    ensures |r| == n
  {
    EncodeLE(if x < 0 then x + Pow256(n) else x, n)
  }

  /** The signed integer whose two's-complement little-endian bytes are `bs`. */
  function DecodeInt(bs: seq<byte>): (r: int)
    ensures FitsSigned(r, |bs|)
  {
    var u := DecodeLE(bs);
    if 2 * u >= Pow256(|bs|) then u - Pow256(|bs|) else u
  }

  lemma DecodeEncodeInt(x: int, n: nat)
    requires FitsSigned(x, n)
    ensures DecodeInt(EncodeInt(x, n)) == x
  {
    DecodeEncodeLE(if x < 0 then x + Pow256(n) else x, n);
  }

  lemma EncodeDecodeInt(bs: seq<byte>)
    ensures EncodeInt(DecodeInt(bs), |bs|) == bs
  {
    EncodeDecodeLE(bs);
  }

  /** A region resized to `n` bytes, as `realloc` does: the common prefix is
      kept and the bytes past the old end are whatever `fill` says. Resizing
      the empty region is `malloc`. */
  function Resize(b: seq<byte>, n: nat, fill: Fill): (r: seq<byte>)
    ensures |r| == n
    ensures forall i :: 0 <= i < n && i < |b| ==> r[i] == b[i]
    ensures forall i :: |b| <= i < n ==> r[i] == fill(i)
  {
    if n <= |b| then b[..n] else b + seq(n - |b|, i requires 0 <= i < n - |b| => fill(|b| + i))
  }
}

=== FILE: event_channel.dfy ===
/** `event_channel` from evchannel.h: an in-process bus mapping event ids to
    ordered lists of handlers.

    A handler's callback is opaque to the channel, so it is a type parameter;
    `post` is modelled by the sequence of calls it makes, each handing the
    callback (a copy of the handle on) the event's content. */
module EventChannel {
  import opened Bytes

  /** `evhandler_t`: the callback and the id `subscribe` gave it. */
  datatype Handler<C> = Handler(id: int, callback: C)

  /** The channel: handlers by event id, and the next callback id to hand out. */
  datatype Channel<C> = Channel(handlers: map<int, seq<Handler<C>>>, nextId: int)

  /** One call made by `post`. */
  datatype Invocation<C> = Invocation(id: int, callback: C, content: seq<byte>)

  datatype Subscribed<C> = Subscribed(channel: Channel<C>, id: int)

  datatype Unsubscribed<C> = Unsubscribed(channel: Channel<C>, deleted: bool)

  /** The ids of `hs` are distinct and all below `next`. */
  predicate IdsBelow<C>(hs: seq<Handler<C>>, next: int) {
    && (forall i :: 0 <= i < |hs| ==> hs[i].id < next)
    && (forall i, j :: 0 <= i < j < |hs| ==> hs[i].id != hs[j].id)
  }

  /** What the channel keeps true: the id counter never goes below zero, and
      every handler's id was handed out by it exactly once. */
  predicate Valid<C>(ch: Channel<C>) {
    && ch.nextId >= 0
    && (forall ev :: ev in ch.handlers ==> IdsBelow(ch.handlers[ev], ch.nextId))
  }

  /** A new channel: no handlers, ids from zero. */
  function Empty<C>(): (ch: Channel<C>)
    ensures Valid(ch) && ch.nextId == 0
    ensures forall ev :: ev !in ch.handlers
  {
    Channel(map[], 0)
  }

  /** The handlers for `ev`, the empty list when it has none. */
  function HandlersOf<C>(ch: Channel<C>, ev: int): seq<Handler<C>> {
    if ev in ch.handlers then ch.handlers[ev] else []
  }

  /** `subscribe<E>(handler)`: the handler goes to the end of the list for the
      event id `ev`, under the next callback id, which is returned. */
  function Subscribe<C>(ch: Channel<C>, ev: int, cb: C): (r: Subscribed<C>)
    ensures r.id == ch.nextId && r.channel.nextId == ch.nextId + 1
    ensures ev in r.channel.handlers
    ensures r.channel.handlers[ev] == HandlersOf(ch, ev) + [Handler(ch.nextId, cb)]
    ensures forall e :: e != ev ==> HandlersOf(r.channel, e) == HandlersOf(ch, e)
    ensures Valid(ch) ==> Valid(r.channel)
  {
    var list := HandlersOf(ch, ev) + [Handler(ch.nextId, cb)];
    var r := Subscribed(Channel(ch.handlers[ev := list], ch.nextId + 1), ch.nextId);
    assert Valid(ch) ==> IdsBelow(list, ch.nextId + 1);
    r
  }

  /** The handlers of `hs` whose id is not `id`, in their order. */
  function Without<C>(hs: seq<Handler<C>>, id: int): (r: seq<Handler<C>>)
    ensures |r| <= |hs|
    ensures forall h :: h in r ==> h in hs && h.id != id
  {
    if |hs| == 0 then []
    else if hs[0].id == id then Without(hs[1..], id)
    else [hs[0]] + Without(hs[1..], id)
  }

  /** Whether some handler in `hs` has the id `id`. */
  predicate HasId<C>(hs: seq<Handler<C>>, id: int) {
    exists i :: 0 <= i < |hs| && hs[i].id == id
  }

  /** `unsubscribe<E>(id)`: removes the handler with that id from the event's
      list and says whether it found one. An event that was never subscribed
      to gives false. The source erases at the end iterator when the list
      exists but holds no such id, which is undefined; the model leaves the
      list as it is and gives false there too. */
  function Unsubscribe<C>(ch: Channel<C>, ev: int, id: int): (r: Unsubscribed<C>)
    ensures r.deleted <==> ev in ch.handlers && HasId(ch.handlers[ev], id)
    ensures !r.deleted ==> r.channel == ch
    ensures r.deleted ==> r.channel == ch.(handlers := ch.handlers[ev := Without(ch.handlers[ev], id)])
    ensures Valid(ch) ==> Valid(r.channel)
  {
    if ev in ch.handlers && HasId(ch.handlers[ev], id) then
      var list := Without(ch.handlers[ev], id);
      var r := Unsubscribed(ch.(handlers := ch.handlers[ev := list]), true);
      assert Valid(ch) ==> Valid(r.channel) by {
        if Valid(ch) {
          WithoutKeepsIds(ch.handlers[ev], id, ch.nextId);
        }
      }
      r
    else Unsubscribed(ch, false)
  }

  /** The calls one list of handlers receives, in order. */
  function Calls<C>(hs: seq<Handler<C>>, content: seq<byte>): (r: seq<Invocation<C>>)
    ensures |r| == |hs|
    ensures forall i :: 0 <= i < |hs| ==> r[i] == Invocation(hs[i].id, hs[i].callback, content)
  {
    if |hs| == 0 then [] else [Invocation(hs[0].id, hs[0].callback, content)] + Calls(hs[1..], content)
  }

  /** The fan-out of `post<E>(event)`: every handler subscribed to the event
      id, in subscription order, with the content; nobody else. This is what
      a post does when no handler's event constructor throws; `PostChecked`
      covers the case where one does. */
  function Post<C>(ch: Channel<C>, ev: int, content: seq<byte>): (r: seq<Invocation<C>>)
    ensures |r| == |HandlersOf(ch, ev)|
    ensures ev !in ch.handlers ==> r == []
    ensures forall i :: 0 <= i < |r| ==> r[i].content == content
    ensures forall i :: 0 <= i < |r| ==> r[i].id == HandlersOf(ch, ev)[i].id
  {
    if ev in ch.handlers then Calls(ch.handlers[ev], content) else []
  }

  /** The outcome of a post: the handlers entered, in order, and whether the
      last of them threw, which ends the post. */
  datatype Delivery<C> = Delivery(calls: seq<Invocation<C>>, thrown: bool)

  /** Each packaged handler first builds the event type it subscribed with
      from the content, `E(buffer)`, and only then runs the callback.
      `decodes(cb, content)` says whether that construction succeeds for the
      handler with callback `cb`. Nothing in `post` catches a constructor's
      exception, so the first handler whose construction throws is the last
      one entered. */
  function Deliver<C>(hs: seq<Handler<C>>, content: seq<byte>, decodes: (C, seq<byte>) -> bool): (r: Delivery<C>)
    ensures |r.calls| <= |hs|
    ensures r.calls == Calls(hs, content)[..|r.calls|]
    ensures r.thrown <==> exists i :: 0 <= i < |hs| && !decodes(hs[i].callback, content)
    ensures !r.thrown ==> r.calls == Calls(hs, content)
    ensures r.thrown ==> 0 < |r.calls| && !decodes(hs[|r.calls| - 1].callback, content)
    ensures r.thrown ==> forall i :: 0 <= i < |r.calls| - 1 ==> decodes(hs[i].callback, content)
  {
    if |hs| == 0 then Delivery([], false)
    else
      var first := Invocation(hs[0].id, hs[0].callback, content);
      if !decodes(hs[0].callback, content) then Delivery([first], true)
      else
        var rest := Deliver(hs[1..], content, decodes);
        assert Calls(hs, content) == [first] + Calls(hs[1..], content);
        assert rest.thrown ==> !decodes(hs[|rest.calls|].callback, content);
        assert !rest.thrown ==> forall i :: 0 <= i < |hs| ==> decodes(hs[i].callback, content) by {
          if !rest.thrown {
            forall i | 0 < i < |hs|
              ensures decodes(hs[i].callback, content)
            {
              assert hs[i] == hs[1..][i - 1];
            }
          }
        }
        Delivery([first] + rest.calls, rest.thrown)
  }

  /** `post<E>(event)` with the handlers' event constructors taken into
      account: the handlers of the event id are entered in order until one
      throws, and that exception leaves `post`. */
  function PostChecked<C>(ch: Channel<C>, ev: int, content: seq<byte>, decodes: (C, seq<byte>) -> bool): (r: Delivery<C>)
    ensures |r.calls| <= |HandlersOf(ch, ev)|
    ensures r.calls == Post(ch, ev, content)[..|r.calls|]
    ensures r.thrown <==> exists i :: 0 <= i < |HandlersOf(ch, ev)| && !decodes(HandlersOf(ch, ev)[i].callback, content)
    ensures !r.thrown ==> r.calls == Post(ch, ev, content)
    ensures r.thrown ==> 0 < |r.calls| && !decodes(HandlersOf(ch, ev)[|r.calls| - 1].callback, content)
    ensures r.thrown ==> forall i :: 0 <= i < |r.calls| - 1 ==> decodes(HandlersOf(ch, ev)[i].callback, content)
  {
    Deliver(HandlersOf(ch, ev), content, decodes)
  }

  // ---------------------------------------------------------------------------
  // Lemmas

  lemma {:induction false} WithoutKeepsIds<C>(hs: seq<Handler<C>>, id: int, next: int)
    requires IdsBelow(hs, next)
    ensures IdsBelow(Without(hs, id), next)
  {
    if |hs| > 0 {
      WithoutKeepsIds(hs[1..], id, next);
      if hs[0].id != id {
        var w := Without(hs[1..], id);
        forall j | 0 <= j < |w|
          ensures w[j].id != hs[0].id
        {
          assert w[j] in w;
        }
      }
    }
  }

  /** With distinct ids, removing the id at index `i` removes exactly that
      handler and keeps the others in order. */
  lemma {:induction false} WithoutRemovesOne<C>(hs: seq<Handler<C>>, id: int, i: nat)
    requires i < |hs| && hs[i].id == id
    requires forall a, b :: 0 <= a < b < |hs| ==> hs[a].id != hs[b].id
    ensures Without(hs, id) == hs[..i] + hs[i + 1..]
  {
    var tail := hs[1..];
    if i == 0 {
      forall a | 0 <= a < |tail|
        ensures tail[a].id != id
      {
        assert tail[a] == hs[a + 1];
      }
      WithoutNone(tail, id);
      assert Without(hs, id) == Without(tail, id);
    } else {
      assert hs[0].id != id;
      forall a, b | 0 <= a < b < |tail|
        ensures tail[a].id != tail[b].id
      {
        assert tail[a] == hs[a + 1] && tail[b] == hs[b + 1];
      }
      WithoutRemovesOne(tail, id, i - 1);
      assert Without(hs, id) == [hs[0]] + Without(tail, id);
      assert tail[..i - 1] == hs[1..i];
      assert tail[i..] == hs[i + 1..];
      assert hs[..i] == [hs[0]] + hs[1..i];
    }
  }

  /** Removing an id nobody has changes nothing. */
  lemma {:induction false} WithoutNone<C>(hs: seq<Handler<C>>, id: int)
    requires forall a :: 0 <= a < |hs| ==> hs[a].id != id
    ensures Without(hs, id) == hs
  {
    if |hs| > 0 {
      WithoutNone(hs[1..], id);
      assert hs == [hs[0]] + hs[1..];
    }
  }

  lemma CallsAppend<C>(a: seq<Handler<C>>, b: seq<Handler<C>>, content: seq<byte>)
    ensures Calls(a + b, content) == Calls(a, content) + Calls(b, content)
  {
  }

  /** Subscribing adds exactly one call, for the new handler, at the end of
      what a post of that event makes, and changes no other event's posts. */
  lemma SubscribeThenPost<C>(ch: Channel<C>, ev: int, cb: C, content: seq<byte>)
    ensures Post(Subscribe(ch, ev, cb).channel, ev, content) == Post(ch, ev, content) + [Invocation(ch.nextId, cb, content)]
    ensures forall e :: e != ev ==> Post(Subscribe(ch, ev, cb).channel, e, content) == Post(ch, e, content)
  {
    CallsAppend(HandlersOf(ch, ev), [Handler(ch.nextId, cb)], content);
  }

  /** Subscribing each callback of `cbs` in turn. */
  function SubscribeAll<C>(ch: Channel<C>, ev: int, cbs: seq<C>): Channel<C>
    decreases |cbs|
  {
    if |cbs| == 0 then ch else SubscribeAll(Subscribe(ch, ev, cbs[0]).channel, ev, cbs[1..])
  }

  /** The calls `k` handlers subscribed in a row receive, ids from `first`. */
  function FanOut<C>(first: int, cbs: seq<C>, content: seq<byte>): (r: seq<Invocation<C>>)
    ensures |r| == |cbs|
  {
    seq(|cbs|, i requires 0 <= i < |cbs| => Invocation(first + i, cbs[i], content))
  }

  /** Subscribing K handlers to an event and posting it calls each of them
      once, after any earlier subscribers, in subscription order, with
      consecutive ids. */
  lemma {:induction false} SubscribeAllThenPost<C>(ch: Channel<C>, ev: int, cbs: seq<C>, content: seq<byte>)
    ensures SubscribeAll(ch, ev, cbs).nextId == ch.nextId + |cbs|
    ensures Post(SubscribeAll(ch, ev, cbs), ev, content) == Post(ch, ev, content) + FanOut(ch.nextId, cbs, content)
    decreases |cbs|
  {
    if |cbs| > 0 {
      var next := Subscribe(ch, ev, cbs[0]).channel;
      SubscribeThenPost(ch, ev, cbs[0], content);
      SubscribeAllThenPost(next, ev, cbs[1..], content);
      var tail := FanOut(next.nextId, cbs[1..], content);
      assert [Invocation(ch.nextId, cbs[0], content)] + tail == FanOut(ch.nextId, cbs, content);
    }
  }

  /** In a valid channel, unsubscribing the handler at index `i` of the
      event's list removes exactly its call from every later post. */
  lemma UnsubscribeThenPost<C>(ch: Channel<C>, ev: int, i: nat, content: seq<byte>)
    requires Valid(ch) && ev in ch.handlers && i < |ch.handlers[ev]|
    ensures Unsubscribe(ch, ev, ch.handlers[ev][i].id).deleted
    ensures Post(Unsubscribe(ch, ev, ch.handlers[ev][i].id).channel, ev, content) ==
      Post(ch, ev, content)[..i] + Post(ch, ev, content)[i + 1..]
  {
    var hs := ch.handlers[ev];
    WithoutRemovesOne(hs, hs[i].id, i);
    CallsRemove(hs, i, content);
  }

  /** Dropping one handler drops exactly its call. */
  lemma CallsRemove<C>(hs: seq<Handler<C>>, i: nat, content: seq<byte>)
    requires i < |hs|
    ensures Calls(hs[..i] + hs[i + 1..], content) == Calls(hs, content)[..i] + Calls(hs, content)[i + 1..]
  {
    var a, b := Calls(hs[..i] + hs[i + 1..], content), Calls(hs, content)[..i] + Calls(hs, content)[i + 1..];
    assert |a| == |b|;
    forall k | 0 <= k < |a|
      ensures a[k] == b[k]
    {
      if k < i {
        assert (hs[..i] + hs[i + 1..])[k] == hs[k];
      } else {
        assert (hs[..i] + hs[i + 1..])[k] == hs[k + 1];
      }
    }
  }

  /** Unsubscribing the id a subscription just returned undoes it, as far as
      any post can tell. */
  lemma SubscribeThenUnsubscribe<C>(ch: Channel<C>, ev: int, cb: C, content: seq<byte>)
    requires Valid(ch)
    ensures Unsubscribe(Subscribe(ch, ev, cb).channel, ev, ch.nextId).deleted
    ensures forall e :: Post(Unsubscribe(Subscribe(ch, ev, cb).channel, ev, ch.nextId).channel, e, content) == Post(ch, e, content)
  {
    var s := Subscribe(ch, ev, cb);
    var hs := HandlersOf(ch, ev);
    var list := s.channel.handlers[ev];
    assert list[|hs|].id == ch.nextId;
    assert HasId(list, ch.nextId);
    WithoutRemovesOne(list, ch.nextId, |hs|);
    assert list[..|hs|] == hs;
    var u := Unsubscribe(s.channel, ev, ch.nextId).channel;
    assert HandlersOf(u, ev) == hs;
    forall e
      ensures Post(u, e, content) == Post(ch, e, content)
    {
      assert HandlersOf(u, e) == HandlersOf(ch, e);
      PostIsCalls(u, e, content);
      PostIsCalls(ch, e, content);
    }
  }

  /** A post makes the calls of the event's list, empty when it has none. */
  lemma PostIsCalls<C>(ch: Channel<C>, ev: int, content: seq<byte>)
    ensures Post(ch, ev, content) == Calls(HandlersOf(ch, ev), content)
  {
  }

  /** When every handler of the event can build its event from the content,
      a post enters all of them and does not throw. */
  lemma PostCheckedAllDecode<C>(ch: Channel<C>, ev: int, content: seq<byte>, decodes: (C, seq<byte>) -> bool)
    requires forall i :: 0 <= i < |HandlersOf(ch, ev)| ==> decodes(HandlersOf(ch, ev)[i].callback, content)
    ensures PostChecked(ch, ev, content, decodes) == Delivery(Post(ch, ev, content), false)
  {
  }

  /** When the handler at index `i` is the first whose event constructor
      throws, the post enters exactly the handlers up to and including it,
      and then throws: no later handler is called. */
  lemma PostStopsAtFirstFailure<C>(ch: Channel<C>, ev: int, content: seq<byte>, decodes: (C, seq<byte>) -> bool, i: nat)
    requires i < |HandlersOf(ch, ev)| && !decodes(HandlersOf(ch, ev)[i].callback, content)
    requires forall j :: 0 <= j < i ==> decodes(HandlersOf(ch, ev)[j].callback, content)
    ensures PostChecked(ch, ev, content, decodes) == Delivery(Post(ch, ev, content)[..i + 1], true)
  {
    var n := |PostChecked(ch, ev, content, decodes).calls|;
    assert n - 1 <= i;
  }

  /** Callback ids are never reused: the id a subscription returns is held by
      no handler of any event before it. */
  lemma SubscribeIdIsFresh<C>(ch: Channel<C>, ev: int, cb: C)
    requires Valid(ch)
    ensures forall e :: e in ch.handlers ==> !HasId(ch.handlers[e], Subscribe(ch, ev, cb).id)
  {
  }
}

=== FILE: log_event.dfy ===
/** `event_log` and `get_log_level` from log.h: a log record carried over the
    event channel as a byte buffer.

    The record is a 4-byte level, an 8-byte time, then the origin and the
    message, each as an 8-byte length followed by its bytes. Formatting the
    time, the log file and the console output are left out. */
module Log {
  import opened Bytes
  import opened Results
  import opened BufferStream

  /** `log_level`: an `int`-sized enumeration. */
  const UNKNOWN: int32 := 0
  const TRACE: int32 := 1
  const INFO: int32 := 2
  const WARN: int32 := 3
  const DEBUG: int32 := 4
  const ERROR: int32 := 5
  const FATAL: int32 := 6

  /** `get_log_level(level)`: the name printed for a level; any value outside
      the enumeration is "NOSUCHLVL". */
  function LevelName(level: int32): (r: string)
    ensures r == "NOSUCHLVL" <==> level < UNKNOWN || level > FATAL
    ensures level == UNKNOWN <==> r == "UNKNOWNLVL"
  {
    if level == TRACE then "TRACE"
    else if level == INFO then "INFO"
    else if level == WARN then "WARN"
    else if level == DEBUG then "DEBUG"
    else if level == ERROR then "ERROR"
    else if level == FATAL then "FATAL"
    else if level == UNKNOWN then "UNKNOWNLVL"
    else "NOSUCHLVL"
  }

  /** The level a printed name stands for, when it stands for one. */
  function LevelOfName(name: string): (r: Option<int32>)
    ensures r.Some? ==> UNKNOWN <= r.value <= FATAL
  {
    if name == "TRACE" then Some(TRACE)
    else if name == "INFO" then Some(INFO)
    else if name == "WARN" then Some(WARN)
    else if name == "DEBUG" then Some(DEBUG)
    else if name == "ERROR" then Some(ERROR)
    else if name == "FATAL" then Some(FATAL)
    else if name == "UNKNOWNLVL" then Some(UNKNOWN)
    else None
  }

  /** Every level of the enumeration has its own name, and reading the name
      back gives the level; no name stands for a value outside it. */
  lemma LevelNamesDistinct(level: int32)
    ensures UNKNOWN <= level <= FATAL ==> LevelOfName(LevelName(level)) == Some(level)
    ensures !(UNKNOWN <= level <= FATAL) ==> LevelOfName(LevelName(level)) == None
  {
  }

  /** The fields of an `event_log`. */
  datatype LogEvent = LogEvent(level: int32, time: int64, from: seq<byte>, msg: seq<byte>)

  /** `event_log::unique_event_id` as written: 1, the id `tick_event` has too. */
  const LogEventIdAsWritten: int := 1

  /** An id of its own for `event_log`, distinct from `tick_event`'s. */
  const LogEventId: int := 2

  /** The bytes of an `event_log`'s buffer: level, time, then the origin and
      the message, each behind its 8-byte length. */
  function LogBytes(e: LogEvent): (r: seq<byte>)
    ensures |r| == 28 + |e.from| + |e.msg|
  {
    FixedWidthRanges(e.level, e.time);
    EncodeInt(e.level, 4) + EncodeInt(e.time, 8) + EncodeLE(|e.from|, 8) + e.from + EncodeLE(|e.msg|, 8) + e.msg
  }

  /** The initial capacity the constructor asks for: the two fixed fields,
      both strings and one more byte, but not the two lengths. */
  function InitialCapacity(e: LogEvent): nat {
    4 + 8 + |e.from| + |e.msg| + 1
  }

  const EncodeError: Error := MemoryException("event_log::event_log()")

  /** The constructor `event_log(lv, tm, from, msg)`: four appends to a
      stream with auto-expansion on, over a new buffer of `InitialCapacity`
      bytes whose contents start as `fill`. Every append can grow the buffer,
      so none fails, and the buffer ends up holding exactly `LogBytes`,
      whatever it held at first. */
  function EncodeLog(e: LogEvent, fill: Fill): (r: Result<seq<byte>>)
    ensures r == Ok(LogBytes(e))
  {
    FixedWidthRanges(e.level, e.time);
    var s0 := SetAutoExpand(Open(Resize([], InitialCapacity(e), fill)), true);
    var a1 := AppendRaw(s0, EncodeInt(e.level, 4), fill);
    if !a1.ok then Err(EncodeError)
    else
      var a2 := AppendRaw(a1.s, EncodeInt(e.time, 8), fill);
      if !a2.ok then Err(EncodeError)
      else
        var a3 := AppendPrefixed(a2.s, e.from, fill);
        if !a3.ok then Err(EncodeError)
        else
          var a4 := AppendPrefixed(a3.s, e.msg, fill);
          if !a4.ok then Err(EncodeError)
          else
            assert a4.s.buf == a4.s.buf[..a4.s.pos];
            Ok(a4.s.buf)
  }

  const DecodeError: Error := MemoryException("event_log::event_log()")

  /** The constructor `event_log(buffer)`: the level and the time are read
      with `get_as`, whose exception passes through; then the origin and the
      message, each as a length-prefixed view. An empty view, whether the
      string was empty or did not fit, throws. */
  function DecodeLog(buf: seq<byte>): (r: Result<LogEvent>)
    ensures |buf| < 12 ==> r == Err(MemoryException("buffer_stream::get_as<T>()"))
    ensures r.Ok? ==> r.value.from != [] && r.value.msg != []
    ensures r.Ok? ==> 28 + |r.value.from| + |r.value.msg| <= |buf| && buf[..28 + |r.value.from| + |r.value.msg|] == LogBytes(r.value)
  {
    var s0 := Open(buf);
    var lv := GetAsFixed(s0, 4);
    match lv.value
    case Err(e) => Err(e)
    case Ok(levelBytes) =>
      var tm := GetAsFixed(lv.s, 8);
      match tm.value
      case Err(e) => Err(e)
      case Ok(timeBytes) =>
        var from := GetPrefixed(tm.s);
        if from.value == [] then Err(DecodeError)
        else
          var msg := GetPrefixed(from.s);
          if msg.value == [] then Err(DecodeError)
          else
            Pow256Values();
            var ev := LogEvent(DecodeInt(levelBytes), DecodeInt(timeBytes), from.value, msg.value);
            DecodedLayout(buf, ev, levelBytes, timeBytes);
            Ok(ev)
  }

  /** The bytes a successful decode read are the layout of what it returned. */
  lemma DecodedLayout(buf: seq<byte>, ev: LogEvent, levelBytes: seq<byte>, timeBytes: seq<byte>)
    requires |buf| >= 12 && levelBytes == buf[..4] && timeBytes == buf[4..12]
    requires PrefixedFits(buf, 12) && ev.from == buf[20..20 + DecodeLE(buf[12..20])]
    requires PrefixedFits(buf, 20 + |ev.from|)
    requires ev.msg == buf[28 + |ev.from|..28 + |ev.from| + DecodeLE(buf[20 + |ev.from|..28 + |ev.from|])]
    requires ev.level == DecodeInt(levelBytes) && ev.time == DecodeInt(timeBytes)
    ensures 28 + |ev.from| + |ev.msg| <= |buf|
    ensures buf[..28 + |ev.from| + |ev.msg|] == LogBytes(ev)
  {
    var f := |ev.from|;
    var n := 28 + f + |ev.msg|;
    Pow256Values();
    EncodeDecodeInt(levelBytes);
    EncodeDecodeInt(timeBytes);
    EncodeDecodeLE(buf[12..20]);
    EncodeDecodeLE(buf[20 + f..28 + f]);
    SplitAt(buf, 4, 12, 20, 20 + f, 28 + f, n);
  }

  /** A prefix is the concatenation of its consecutive slices. */
  lemma SplitAt(buf: seq<byte>, a: nat, b: nat, c: nat, d: nat, e: nat, n: nat)
    requires a <= b <= c <= d <= e <= n <= |buf|
    ensures buf[..n] == buf[..a] + buf[a..b] + buf[b..c] + buf[c..d] + buf[d..e] + buf[e..n]
  {
  }

  /** The fields of `LogBytes`, at the offsets a decoder reads them from. */
  lemma LogBytesFields(e: LogEvent)
    ensures LogBytes(e)[..4] == EncodeInt(e.level, 4) && LogBytes(e)[4..12] == EncodeInt(e.time, 8)
    ensures LogBytes(e)[12..20] == EncodeLE(|e.from|, 8)
    ensures LogBytes(e)[20..20 + |e.from|] == e.from
    ensures LogBytes(e)[20 + |e.from|..28 + |e.from|] == EncodeLE(|e.msg|, 8)
    ensures LogBytes(e)[28 + |e.from|..] == e.msg
  {
    FixedWidthRanges(e.level, e.time);
    var head := EncodeInt(e.level, 4) + EncodeInt(e.time, 8) + EncodeLE(|e.from|, 8);
    var mid := head + e.from;
    var all := mid + EncodeLE(|e.msg|, 8);
    assert LogBytes(e) == all + e.msg;
    assert LogBytes(e)[..|all|] == all;
    assert all[..|mid|] == mid;
    assert mid[..|head|] == head;
  }

  /** The stream steps of decoding `LogBytes(e)`: where each read ends and
      what it yields. */
  lemma DecodeLogSteps(e: LogEvent)
    requires 28 + |e.from| + |e.msg| < SIZE_LIMIT
    ensures var b := LogBytes(e);
      var lv := GetAsFixed(Open(b), 4);
      var tm := GetAsFixed(lv.s, 8);
      && lv.value == Ok(EncodeInt(e.level, 4))
      && tm.value == Ok(EncodeInt(e.time, 8))
      && tm.s.pos == 12 && tm.s.buf == b
      && GetPrefixed(tm.s).value == e.from
      && GetPrefixed(tm.s).s.pos == 20 + |e.from|
      && GetPrefixed(GetPrefixed(tm.s).s).value == e.msg
  {
    var b := LogBytes(e);
    LogBytesFields(e);
    Pow256Values();
    HeaderReads(b);
    var tm := GetAsFixed(GetAsFixed(Open(b), 4).s, 8);
    GetPrefixedAt(tm.s, e.from);
    GetPrefixedAt(GetPrefixed(tm.s).s, e.msg);
  }

  /** The decoder's two fixed-width reads at the front of a buffer: the level
      from bytes 0-3, the time from bytes 4-11, leaving the cursor at 12. */
  lemma HeaderReads(b: seq<byte>)
    requires |b| >= 12
    ensures GetAsFixed(Open(b), 4).value == Ok(b[..4])
    ensures GetAsFixed(GetAsFixed(Open(b), 4).s, 8).value == Ok(b[4..12])
    ensures GetAsFixed(GetAsFixed(Open(b), 4).s, 8).s.pos == 12
    ensures GetAsFixed(GetAsFixed(Open(b), 4).s, 8).s.buf == b
  {
    assert Reference(b, 0, 4) == Some(b[..4]);
    assert Reference(b, 4, 8) == Some(b[4..12]);
  }

  /** The decoder applied to a record's layout gives the record back, when
      its origin and message are non-empty. */
  lemma DecodeLogBytes(e: LogEvent)
    requires 0 < |e.from| && 0 < |e.msg| && 28 + |e.from| + |e.msg| < SIZE_LIMIT
    ensures DecodeLog(LogBytes(e)) == Ok(e)
  {
    var b := LogBytes(e);
    DecodeLogSteps(e);
    FixedWidthRanges(e.level, e.time);
    DecodeEncodeInt(e.level, 4);
    DecodeEncodeInt(e.time, 8);
    var lv := GetAsFixed(Open(b), 4);
    var tm := GetAsFixed(lv.s, 8);
    var from := GetPrefixed(tm.s);
    var msg := GetPrefixed(from.s);
    assert LogEvent(DecodeInt(lv.value.value), DecodeInt(tm.value.value), from.value, msg.value) == e;
  }

  /** A record with a non-empty origin and message decodes from its own
      buffer to the same level, time, origin and message. */
  lemma LogRoundTrip(e: LogEvent, fill: Fill)
    requires 0 < |e.from| && 0 < |e.msg| && 28 + |e.from| + |e.msg| < SIZE_LIMIT
    ensures EncodeLog(e, fill).Ok?
    ensures DecodeLog(EncodeLog(e, fill).value) == Ok(e)
  {
    DecodeLogBytes(e);
  }

  /** A record whose origin or message is empty encodes, but its buffer does
      not decode: the empty view reads as a failure. */
  lemma EmptyFieldFailsToDecode(e: LogEvent, fill: Fill)
    requires |e.from| == 0 || |e.msg| == 0
    requires 28 + |e.from| + |e.msg| < SIZE_LIMIT
    ensures DecodeLog(EncodeLog(e, fill).value) == Err(DecodeError)
  {
    DecodeLogSteps(e);
  }
}

=== FILE: packet.dfy ===
/** Event packets from evchannel.h: `send_packet` writes an event's id, the
    size of its content and the content to a file descriptor; `recv_packet`
    reads them back from a socket.

    The wire is modelled as the byte sequence one `send_packet` produces and
    the byte sequence one `recv_packet` receives; the descriptors, partial
    reads and the socket's end-of-file are left out. */
module Packet {
  import opened Bytes
  import opened Results
  import opened BufferStream
  import Allocators

  /** What `recv_packet` returns: the event id and a buffer holding the content. */
  datatype Packet = Packet(id: int32, payload: seq<byte>)

  /** The packed header the receiver reads: a 4-byte id, then an 8-byte size. */
  const HEADER_SIZE: nat := 12

  /** How many bytes `nonblocking_socket_stream::read` starts its buffer with. */
  const RECV_CAPACITY: nat := 1024

  /** The buffer `nonblocking_socket_stream::read` returns for the received
      bytes `d`: they are appended to a zeroed 1024-byte buffer, which grows
      to fit them once they reach its end. */
  function ReceivedBuffer(d: seq<byte>): (w: seq<byte>)
    ensures |w| == if |d| < RECV_CAPACITY then RECV_CAPACITY else |d|
    ensures w[..|d|] == d
    ensures forall i :: |d| <= i < |w| ==> w[i] == 0
  {
    if |d| < RECV_CAPACITY then d + Zeros(RECV_CAPACITY - |d|) else d
  }

  /** `send_packet`, with the header packed as the receiver expects it: the
      id, the content's size and the content. */
  function SendPacket(id: int32, content: seq<byte>): (r: seq<byte>)
    requires |content| < SIZE_LIMIT
    ensures |r| == HEADER_SIZE + |content|
    ensures DecodeInt(r[..4]) == id
    ensures DecodeLE(r[4..HEADER_SIZE]) == |content|
    ensures r[HEADER_SIZE..] == content
  {
    FixedWidthRanges(id, 0);
    Pow256Values();
    DecodeEncodeInt(id, 4);
    DecodeEncodeLE(|content|, 8);
    var r := EncodeInt(id, 4) + EncodeLE(|content|, 8) + content;
    assert r[..4] == EncodeInt(id, 4);
    assert r[4..HEADER_SIZE] == EncodeLE(|content|, 8);
    r
  }

  /** `send_packet` as written: `event_packet_header` is an `int` followed by
      a `size_t`, so the compiler puts 4 bytes of padding, `pad`, between them
      and the header takes 16 bytes. */
  function SendPacketAsWritten(id: int32, content: seq<byte>, pad: seq<byte>): (r: seq<byte>)
    requires |content| < SIZE_LIMIT && |pad| == 4
    ensures |r| == 16 + |content|
    ensures r[..4] == SendPacket(id, content)[..4]
    ensures r[4..8] == pad && r[8..16] == EncodeLE(|content|, 8) && r[16..] == content
  {
    FixedWidthRanges(id, 0);
    EncodeInt(id, 4) + pad + EncodeLE(|content|, 8) + content
  }

  /** The event id and the size the receiver reads from the buffer `w`. */
  function HeaderId(w: seq<byte>): int32
    requires |w| >= HEADER_SIZE
  {
    Pow256Values();
    DecodeInt(w[..4])
  }

  function HeaderSize(w: seq<byte>): int64
    requires |w| >= HEADER_SIZE
  {
    Pow256Values();
    DecodeInt(w[4..HEADER_SIZE])
  }

  /** The two `get_as` reads `recv_packet` starts with: the id at offset 0,
      then the size at offset 4. Either throws when the buffer is too short. */
  function ReadHeader(w: seq<byte>): (r: Result<(int32, int64)>)
    ensures r.Err? <==> |w| < HEADER_SIZE
    ensures r.Ok? ==> r.value == (HeaderId(w), HeaderSize(w))
  {
    var idRead := GetAsFixed(Open(w), 4);
    match idRead.value
    case Err(e) => Err(e)
    case Ok(idBytes) =>
      var sizeRead := GetAsFixed(idRead.s, 8);
      match sizeRead.value
      case Err(e) => Err(e)
      case Ok(sizeBytes) =>
        Pow256Values();
        Ok((DecodeInt(idBytes), DecodeInt(sizeBytes)))
  }

  /** The error every failure inside `recv_packet` is turned into. */
  const RecvError: Error := MemoryException("recv_packet()")

  /** `recv_packet`, as intended: the id and the size are read with
      `get_as`, and `size` bytes from offset 12 are copied into a new buffer
      of that capacity, whose other bytes start as `fill`. A negative size
      converts to a `size_t` of at least 2^63, which `malloc` cannot supply;
      a size running past the receive buffer has nothing to copy. Both
      throw. The bound is the receive buffer, not the bytes that arrived:
      that buffer is zero-padded to 1024 bytes, so a frame shorter than its
      declared size is accepted with zeros in place of the missing bytes
      (`ShortFrameIsZeroPadded`). */
  function RecvPacket(data: seq<byte>, fill: Fill): (r: Result<Packet>)
    ensures r.Err? <==> HeaderSize(ReceivedBuffer(data)) < 0 || HEADER_SIZE + HeaderSize(ReceivedBuffer(data)) > |ReceivedBuffer(data)|
    ensures r.Err? ==> r.error == RecvError
    ensures r.Ok? ==> r.value.id == HeaderId(ReceivedBuffer(data))
    ensures r.Ok? ==> r.value.payload == ReceivedBuffer(data)[HEADER_SIZE..HEADER_SIZE + HeaderSize(ReceivedBuffer(data))]
  {
    var w := ReceivedBuffer(data);
    match ReadHeader(w)
    case Err(_) => Err(RecvError)
    case Ok((id, size)) =>
      if size < 0 then Err(RecvError)
      else match Reference(w, HEADER_SIZE, size)
        case None => Err(RecvError)
        case Some(view) =>
          var copy := AppendRaw(Open(Resize([], size, fill)), view, fill);
          assert copy.s.buf == copy.s.buf[..copy.s.pos];
          Ok(Packet(id, copy.s.buf))
  }

  /** `recv_packet` as written: `recv_stream.append(stream.reference(12, size))`
      picks the one-object `append<T>` with T = `char*`, so it writes the
      8 bytes of the pointer (`addr + 12` inside the received buffer at
      address `addr`, or null) instead of the bytes it points at. In a buffer
      of fewer than 8 bytes the write fails and is ignored. The buffer of
      `size` bytes comes from a new `heap_allocator`; `malloc` is what its
      allocations returned, 0 when one of them (the shared metadata or the
      `size` bytes) came back null. Then the allocator throws, and so does
      `recv_packet`. */
  function RecvPacketAsWritten(data: seq<byte>, malloc: Allocators.Ptr, addr: nat, fill: Fill): (r: Result<Packet>)
    ensures r.Err? <==> HeaderSize(ReceivedBuffer(data)) < 0 || malloc == 0
    ensures r.Err? ==> r.error == RecvError
    ensures r.Ok? ==> r.value.id == HeaderId(ReceivedBuffer(data))
    ensures r.Ok? ==> |r.value.payload| == HeaderSize(ReceivedBuffer(data))
    ensures r.Ok? && HeaderSize(ReceivedBuffer(data)) >= 8 ==>
      r.value.payload[..8] == EncodeLE(if HEADER_SIZE + HeaderSize(ReceivedBuffer(data)) <= |ReceivedBuffer(data)| then addr + HEADER_SIZE else 0, 8)
  {
    var w := ReceivedBuffer(data);
    match ReadHeader(w)
    case Err(_) => Err(RecvError)
    case Ok((id, size)) =>
      assert w == ReceivedBuffer(data) && size == HeaderSize(w);
      if size < 0 || Allocators.HeapAllocate(Allocators.HeapAllocator([]), malloc).ptr.Err? then Err(RecvError)
      else
        // `reference(12, size)` is null exactly when the range runs past `w`.
        var pointer := if HEADER_SIZE + size <= |w| then addr + HEADER_SIZE else 0;
        assert Reference(w, HEADER_SIZE, size).Some? <==> HEADER_SIZE + size <= |w|;
        var copy := AppendRaw(Open(Resize([], size, fill)), EncodeLE(pointer, 8), fill);
        assert |copy.s.buf| == size;
        assert size >= 8 ==> copy.ok && copy.s.buf[..8] == EncodeLE(pointer, 8);
        Ok(Packet(id, copy.s.buf))
  }

  // ---------------------------------------------------------------------------
  // Round trips

  /** A packet whose content fits an `int64` size comes back as it was sent. */
  lemma PacketRoundTrip(id: int32, content: seq<byte>, fill: Fill)
    requires 2 * |content| < SIZE_LIMIT
    ensures RecvPacket(SendPacket(id, content), fill) == Ok(Packet(id, content))
  {
    SentHeader(id, content);
    var r := RecvPacket(SendPacket(id, content), fill);
    assert r.Ok?;
    assert r.value == Packet(id, content);
  }

  /** What the receiver reads from the bytes of one packed packet. */
  lemma SentHeader(id: int32, content: seq<byte>)
    requires 2 * |content| < SIZE_LIMIT
    ensures |ReceivedBuffer(SendPacket(id, content))| >= HEADER_SIZE + |content|
    ensures HeaderId(ReceivedBuffer(SendPacket(id, content))) == id
    ensures HeaderSize(ReceivedBuffer(SendPacket(id, content))) == |content|
    ensures ReceivedBuffer(SendPacket(id, content))[HEADER_SIZE..HEADER_SIZE + |content|] == content
  {
    var d := SendPacket(id, content);
    var w := ReceivedBuffer(d);
    assert w[..4] == d[..4] && w[4..HEADER_SIZE] == d[4..HEADER_SIZE];
    Pow256Values();
    assert w[HEADER_SIZE..HEADER_SIZE + |content|] == d[HEADER_SIZE..];
  }

  /** Every packet that is received re-encodes to the bytes it was read from. */
  lemma RecvThenSend(data: seq<byte>, fill: Fill)
    requires RecvPacket(data, fill).Ok?
    ensures |RecvPacket(data, fill).value.payload| < SIZE_LIMIT
    ensures SendPacket(RecvPacket(data, fill).value.id, RecvPacket(data, fill).value.payload) ==
      ReceivedBuffer(data)[..HEADER_SIZE + |RecvPacket(data, fill).value.payload|]
  {
    ResendHeader(ReceivedBuffer(data));
  }

  /** A frame of at least a header but shorter than its declared size, with
      the declared end inside the 1024-byte receive buffer, is accepted: the
      payload is the bytes that arrived after the header, then zeros. */
  lemma ShortFrameIsZeroPadded(data: seq<byte>, fill: Fill)
    requires HEADER_SIZE <= |data| && |data| < HEADER_SIZE + HeaderSize(data) <= RECV_CAPACITY
    ensures RecvPacket(data, fill).Ok?
    ensures RecvPacket(data, fill).value == Packet(HeaderId(data), data[HEADER_SIZE..] + Zeros(HEADER_SIZE + HeaderSize(data) - |data|))
  {
    var w := ReceivedBuffer(data);
    assert w[..4] == data[..4] && w[4..HEADER_SIZE] == data[4..HEADER_SIZE];
    var n := HeaderSize(data);
    assert w[HEADER_SIZE..HEADER_SIZE + n] == data[HEADER_SIZE..] + Zeros(HEADER_SIZE + n - |data|);
  }

  /** Sending the header fields and the payload a buffer declares gives back
      the buffer's prefix they were read from. */
  lemma ResendHeader(w: seq<byte>)
    requires |w| >= HEADER_SIZE && 0 <= HeaderSize(w) && HEADER_SIZE + HeaderSize(w) <= |w|
    ensures SendPacket(HeaderId(w), w[HEADER_SIZE..HEADER_SIZE + HeaderSize(w)]) == w[..HEADER_SIZE + HeaderSize(w)]
  {
    var n := HeaderSize(w);
    var payload := w[HEADER_SIZE..HEADER_SIZE + n];
    HeaderBytes(w);
    assert SendPacket(HeaderId(w), payload) == EncodeInt(HeaderId(w), 4) + EncodeLE(n, 8) + payload;
    assert w[..HEADER_SIZE + n] == w[..4] + w[4..HEADER_SIZE] + payload;
  }

  /** The header fields, encoded again, are the header bytes they came from. */
  lemma HeaderBytes(w: seq<byte>)
    requires |w| >= HEADER_SIZE
    ensures FitsSigned(HeaderId(w), 4) && EncodeInt(HeaderId(w), 4) == w[..4]
    ensures HeaderSize(w) >= 0 ==> EncodeLE(HeaderSize(w), 8) == w[4..HEADER_SIZE]
  {
    Pow256Values();
    EncodeDecodeInt(w[..4]);
    EncodeDecodeLE(w[4..HEADER_SIZE]);
  }

  // ---------------------------------------------------------------------------
  // Findings

  lemma {:induction false} EncodeLEPrefix(x: nat, m: nat, n: nat)
    requires m <= n
    ensures EncodeLE(x, n)[..m] == EncodeLE(x, m)
  {
    if m > 0 {
      EncodeLEPrefix(x / 256, m - 1, n - 1);
    }
  }

  /** The padded header the sender writes is not the header the receiver
      reads: for any non-empty content under 2^31 bytes and any padding, the
      receiver takes the padding and the low half of the size as the size,
      which is then at least 2^32, past the receive buffer. The intended
      receiver refuses the packet. The receiver as written checks only the
      sign of the size, so it asks for a buffer of at least 2^32 bytes: when
      that allocation succeeds it accepts the packet and returns that buffer
      instead of the content, and otherwise it throws. */
  lemma PaddedHeaderBreaksRoundTrip(id: int32, content: seq<byte>, pad: seq<byte>, malloc: Allocators.Ptr, addr: nat, fill: Fill)
    requires 1 <= |content| < 0x8000_0000 && |pad| == 4
    ensures HeaderSize(ReceivedBuffer(SendPacketAsWritten(id, content, pad))) >= 0x1_0000_0000
    ensures RecvPacket(SendPacketAsWritten(id, content, pad), fill).Err?
    ensures RecvPacketAsWritten(SendPacketAsWritten(id, content, pad), malloc, addr, fill).Ok? <==> malloc != 0
    ensures malloc != 0 ==>
      && |RecvPacketAsWritten(SendPacketAsWritten(id, content, pad), malloc, addr, fill).value.payload| >= 0x1_0000_0000
      && RecvPacketAsWritten(SendPacketAsWritten(id, content, pad), malloc, addr, fill).value.payload != content
  {
    var w := ReceivedBuffer(SendPacketAsWritten(id, content, pad));
    PaddedHeaderSize(id, content, pad);
    assert |w| < 0x1_0000_0000;
  }

  /** With the padded header, once the allocation of the size read succeeds,
      the as-written receiver's payload starts with the eight zero bytes of a
      null pointer: the size runs past the receive buffer, so `reference`
      returns null and that is what it copies. */
  lemma PaddedHeaderCopiesNull(id: int32, content: seq<byte>, pad: seq<byte>, malloc: Allocators.Ptr, addr: nat, fill: Fill)
    requires 1 <= |content| < 0x8000_0000 && |pad| == 4
    ensures RecvPacketAsWritten(SendPacketAsWritten(id, content, pad), malloc, addr, fill).Ok? <==> malloc != 0
    ensures malloc != 0 ==>
      && |RecvPacketAsWritten(SendPacketAsWritten(id, content, pad), malloc, addr, fill).value.payload| >= 8
      && RecvPacketAsWritten(SendPacketAsWritten(id, content, pad), malloc, addr, fill).value.payload[..8] == EncodeLE(0, 8)
  {
    var w := ReceivedBuffer(SendPacketAsWritten(id, content, pad));
    PaddedHeaderSize(id, content, pad);
    assert |w| < 0x1_0000_0000;
    assert HEADER_SIZE + HeaderSize(w) > |w|;
  }

  /** The size the receiver reads from a padded header: the padding is its
      low half and the low half of the real size its high half. */
  lemma PaddedHeaderSize(id: int32, content: seq<byte>, pad: seq<byte>)
    requires |content| < 0x8000_0000 && |pad| == 4
    ensures HeaderSize(ReceivedBuffer(SendPacketAsWritten(id, content, pad))) == DecodeLE(pad) + 0x1_0000_0000 * |content|
  {
    var w := ReceivedBuffer(SendPacketAsWritten(id, content, pad));
    PaddedHeaderBytes(id, content, pad);
    var u := DecodeLE(pad + EncodeLE(|content|, 4));
    Pow256Values();
    DecodeEncodeLE(|content|, 4);
    DecodeLEAppend(pad, EncodeLE(|content|, 4));
    assert u == DecodeLE(pad) + 0x1_0000_0000 * |content|;
    assert 2 * u < SIZE_LIMIT;
    assert HeaderSize(w) == DecodeInt(pad + EncodeLE(|content|, 4));
  }

  /** The bytes the receiver takes for the size in a padded header. */
  lemma PaddedHeaderBytes(id: int32, content: seq<byte>, pad: seq<byte>)
    requires |content| < SIZE_LIMIT && |pad| == 4
    ensures |ReceivedBuffer(SendPacketAsWritten(id, content, pad))| >= HEADER_SIZE
    ensures ReceivedBuffer(SendPacketAsWritten(id, content, pad))[4..HEADER_SIZE] == pad + EncodeLE(|content|, 4)
  {
    var d := SendPacketAsWritten(id, content, pad);
    var w := ReceivedBuffer(d);
    assert w[4..HEADER_SIZE] == d[4..HEADER_SIZE];
    assert d[4..HEADER_SIZE] == pad + d[8..16][..4];
    EncodeLEPrefix(|content|, 4, 8);
  }

  /** The receiver as written does not deliver the content: when its
      allocation succeeds, the first 8 bytes of every payload of 8 bytes or
      more are the address it was received at; otherwise it throws. */
  lemma PointerCopyLosesPayload(id: int32, content: seq<byte>, malloc: Allocators.Ptr, addr: nat, fill: Fill)
    requires 8 <= |content| && 2 * |content| < SIZE_LIMIT
    requires content[..8] != EncodeLE(addr + HEADER_SIZE, 8)
    ensures RecvPacketAsWritten(SendPacket(id, content), malloc, addr, fill).Ok? <==> malloc != 0
    ensures malloc != 0 ==> RecvPacketAsWritten(SendPacket(id, content), malloc, addr, fill).value.payload != content
    ensures RecvPacket(SendPacket(id, content), fill) == Ok(Packet(id, content))
  {
    PacketRoundTrip(id, content, fill);
    SentHeader(id, content);
  }
}

=== FILE: results.dfy ===
/** Failure-carrying values shared by every component: the optional value
    (a null pointer or an empty view in the C++ code) and the result of a call
    that can throw `memory_exception`. */
module Results {

  /** A value that may be absent, standing for a pointer that may be null. */
  datatype Option<+T> = None | Some(value: T)

  /** `memory_exception`, tagged with the function that threw it. */
  datatype Error = MemoryException(who: string)

  /** The outcome of a call that either returns a value or throws. */
  datatype Result<+T> = Ok(value: T) | Err(error: Error)
}

=== FILE: timer.dfy ===
/** `tick_event` and `timer` from timer.h: a 20 Hz tick carried as an event,
    and a table of periodic tasks that every tick steps.

    The task fields are `int64_t` in the source; the model uses unbounded
    integers, since the counters only move by one per tick. */
module Timer {
  import opened Bytes
  import opened Results
  import opened BufferStream

  // ---------------------------------------------------------------------------
  // tick_event

  /** `tick_event::unique_event_id`. */
  const TickEventId: int := 1

  /** `tick_event(ticks)`: the tick count appended to a new 8-byte buffer,
      whose contents start as `fill`. The append fills it exactly. */
  function EncodeTick(ticks: int64, fill: Fill): (r: seq<byte>)
    ensures |r| == 8
    ensures DecodeInt(r) == ticks
  {
    FixedWidthRanges(0, ticks);
    DecodeEncodeInt(ticks, 8);
    var put := AppendRaw(Open(Resize([], 8, fill)), EncodeInt(ticks, 8), fill);
    assert put.s.buf == put.s.buf[..put.s.pos];
    put.s.buf
  }

  /** `tick_event(buffer)`: `get_as<int64_t>` on the buffer, which throws when
      it holds fewer than 8 bytes. */
  function DecodeTick(buf: seq<byte>): (r: Result<int64>)
    ensures r.Err? <==> |buf| < 8
    ensures r.Ok? ==> r.value == DecodeInt(buf[..8])
  {
    var read := GetAsFixed(Open(buf), 8);
    match read.value
    case Err(e) => Err(e)
    case Ok(bytes) =>
      Pow256Values();
      Ok(DecodeInt(bytes))
  }

  /** The content of a tick event decodes to its tick count, whatever the
      buffer held before. */
  lemma TickRoundTrip(ticks: int64, fill: Fill)
    ensures DecodeTick(EncodeTick(ticks, fill)) == Ok(ticks)
  {
    var b := EncodeTick(ticks, fill);
    assert b[..8] == b;
  }

  // ---------------------------------------------------------------------------
  // The task table

  /** `tv_t`: ticks between runs, ticks left until the next run, runs so far,
      and runs wanted (`inf_times`, or any value the run count never reaches,
      for no limit). */
  datatype Tv = Tv(gap: int, countdown: int, spend: int, total: int)

  const Invalid: Tv := Tv(-1, -1, -1, -1)
  const InfTimes: int := -1
  const Sec: int := 20
  const Min: int := Sec * 60
  const Hr: int := Min * 60

  /** `make_tv(gap, times)`: first run after `gap` ticks, none so far. */
  function MakeTv(gap: int, times: int): (tv: Tv)
    ensures tv.gap == gap && tv.countdown == gap && tv.spend == 0 && tv.total == times
  {
    Tv(gap, gap, 0, times)
  }

  datatype Task<C> = Task(tv: Tv, cb: C)

  /** The timer: tasks by id, and the next id to hand out. */
  datatype Timer<C> = Timer(tasks: map<int, Task<C>>, nextId: int)

  /** Every task's id was handed out already. */
  predicate Valid<C>(t: Timer<C>) {
    t.nextId >= 0 && forall id :: id in t.tasks ==> 0 <= id < t.nextId
  }

  function Empty<C>(): (t: Timer<C>)
    ensures Valid(t) && t.tasks == map[]
  {
    Timer(map[], 0)
  }

  datatype Added<C> = Added(timer: Timer<C>, id: int)

  /** `add(tv, cb)`: stores the task under the next id and returns that id. */
  function Add<C>(t: Timer<C>, tv: Tv, cb: C): (r: Added<C>)
    ensures r.id == t.nextId && r.timer.nextId == t.nextId + 1
    ensures r.timer.tasks == t.tasks[r.id := Task(tv, cb)]
    ensures Valid(t) ==> Valid(r.timer) && r.id !in t.tasks
  {
    Added(Timer(t.tasks[t.nextId := Task(tv, cb)], t.nextId + 1), t.nextId)
  }

  datatype Cancelled<C> = Cancelled(timer: Timer<C>, removed: bool)

  /** `cancel(cid)`: removes the task and says whether there was one. */
  function Cancel<C>(t: Timer<C>, id: int): (r: Cancelled<C>)
    ensures r.removed <==> id in t.tasks
    ensures r.timer.tasks == t.tasks - {id} && r.timer.nextId == t.nextId
    ensures Valid(t) ==> Valid(r.timer)
  {
    if id in t.tasks then Cancelled(t.(tasks := t.tasks - {id}), true)
    else Cancelled(t, false)
  }

  /** `query(cid)`: the task's `tv`, or all -1 for an id with no task. */
  function Query<C>(t: Timer<C>, id: int): (r: Tv)
    ensures id !in t.tasks ==> r == Invalid
    ensures id in t.tasks ==> r == t.tasks[id].tv
  {
    if id in t.tasks then t.tasks[id].tv else Invalid
  }

  /** What `query` gives right after `add`, and right after `cancel`. */
  lemma AddThenQuery<C>(t: Timer<C>, tv: Tv, cb: C)
    ensures Query(Add(t, tv, cb).timer, Add(t, tv, cb).id) == tv
    ensures Cancel(Add(t, tv, cb).timer, Add(t, tv, cb).id).removed
    ensures Query(Cancel(Add(t, tv, cb).timer, Add(t, tv, cb).id).timer, Add(t, tv, cb).id) == Invalid
  {
  }

  /** Ids from `add` strictly increase. */
  lemma AddIdsIncrease<C>(t: Timer<C>, tv1: Tv, cb1: C, tv2: Tv, cb2: C)
    ensures Add(t, tv1, cb1).id < Add(Add(t, tv1, cb1).timer, tv2, cb2).id
  {
  }

  // ---------------------------------------------------------------------------
  // One tick

  /** What one tick does to one task: whether its callback runs, the `tv` the
      callback sees, and the task's next `tv`, or None once it is removed. */
  datatype Step = Step(fired: bool, seen: Tv, next: Option<Tv>)

  /** The body of the loop in `run`'s tick handler, for one task: the
      countdown drops by one; when it reaches zero the callback runs with the
      `tv` as it is then, the run is counted, and the task is removed if that
      was its last run or otherwise waits `gap` ticks again. */
  function StepTask(tv: Tv): (r: Step)
    ensures r.fired <==> tv.countdown == 1
    ensures !r.fired ==> r.next == Some(tv.(countdown := tv.countdown - 1))
    ensures r.fired ==> r.seen == tv.(countdown := 0)
    ensures r.fired ==> (r.next == None <==> tv.spend + 1 == tv.total)
    ensures r.fired && r.next.Some? ==> r.next.value == Tv(tv.gap, tv.gap, tv.spend + 1, tv.total)
  {
    var countdown := tv.countdown - 1;
    if countdown == 0 then
      var seen := tv.(countdown := 0);
      var spend := tv.spend + 1;
      if spend == tv.total then Step(true, seen, None)
      else Step(true, seen, Some(Tv(tv.gap, tv.gap, spend, tv.total)))
    else Step(false, tv.(countdown := countdown), Some(tv.(countdown := countdown)))
  }

  /** A callback the tick ran: which one, and the `tv` it was given. */
  datatype Fired<C> = Fired(cb: C, tv: Tv)

  datatype Ticked<C> = Ticked(timer: Timer<C>, fired: map<int, Fired<C>>)

  /** The tick handler `run` subscribes: every task takes one step. The
      callbacks that ran are returned by task id: the source walks an
      `unordered_map`, whose order is unspecified. */
  function Tick<C>(t: Timer<C>): (r: Ticked<C>)
    ensures r.timer.nextId == t.nextId
    ensures forall id :: id in r.timer.tasks ==> id in t.tasks
    ensures forall id :: id in r.fired ==> id in t.tasks
    ensures forall id :: id in t.tasks ==>
      && (id in r.timer.tasks <==> StepTask(t.tasks[id].tv).next.Some?)
      && (id in r.timer.tasks ==> r.timer.tasks[id] == Task(StepTask(t.tasks[id].tv).next.value, t.tasks[id].cb))
      && (id in r.fired <==> t.tasks[id].tv.countdown == 1)
      && (id in r.fired ==> r.fired[id] == Fired(t.tasks[id].cb, t.tasks[id].tv.(countdown := 0)))
    ensures Valid(t) ==> Valid(r.timer)
  {
    var tasks := map id | id in t.tasks && StepTask(t.tasks[id].tv).next.Some? ::
      Task(StepTask(t.tasks[id].tv).next.value, t.tasks[id].cb);
    var fired := map id | id in t.tasks && StepTask(t.tasks[id].tv).fired ::
      Fired(t.tasks[id].cb, StepTask(t.tasks[id].tv).seen);
    Ticked(Timer(tasks, t.nextId), fired)
  }

  /** `k` ticks in a row. */
  function TickN<C>(t: Timer<C>, k: nat): Timer<C>
  {
    if k == 0 then t else Tick(TickN(t, k - 1)).timer
  }

  /** One task's `tv` after `k` ticks, None once it has been removed. */
  function RunTask(tv: Tv, k: nat): Option<Tv>
  {
    if k == 0 then Some(tv)
    else match RunTask(tv, k - 1)
      case None => None
      case Some(prev) => StepTask(prev).next
  }

  /** Whether the `k`-th tick (counting from 1) runs the task's callback. */
  predicate FiresOnTick(tv: Tv, k: nat) {
    k >= 1 && RunTask(tv, k - 1).Some? && StepTask(RunTask(tv, k - 1).value).fired
  }

  /** The timer after `k` ticks is the tasks stepped independently: a task is
      still there exactly when its own run has not ended, with the `tv` that
      run reached, and no task appears. */
  lemma {:induction false} TickNIsRunTask<C>(t: Timer<C>, k: nat, id: int)
    requires id in t.tasks
    ensures id in TickN(t, k).tasks <==> RunTask(t.tasks[id].tv, k).Some?
    ensures id in TickN(t, k).tasks ==> TickN(t, k).tasks[id] == Task(RunTask(t.tasks[id].tv, k).value, t.tasks[id].cb)
  {
    if k > 0 {
      TickNIsRunTask(t, k - 1, id);
      TickOne(TickN(t, k - 1), id, RunTask(t.tasks[id].tv, k - 1), t.tasks[id].cb);
    }
  }

  /** One tick takes a task at `before` (None when absent) to its next step. */
  lemma TickOne<C>(t: Timer<C>, id: int, before: Option<Tv>, cb: C)
    requires id in t.tasks <==> before.Some?
    requires id in t.tasks ==> t.tasks[id] == Task(before.value, cb)
    ensures id in Tick(t).timer.tasks <==> before.Some? && StepTask(before.value).next.Some?
    ensures id in Tick(t).timer.tasks ==> Tick(t).timer.tasks[id] == Task(StepTask(before.value).next.value, cb)
  {
  }

  lemma {:induction false} TickNKeepsOut<C>(t: Timer<C>, k: nat, id: int)
    requires id !in t.tasks
    ensures id !in TickN(t, k).tasks
  {
    if k > 0 {
      TickNKeepsOut(t, k - 1, id);
    }
  }

  /** A task made by `make_tv(g, n)` with g, n >= 1, during its j-th period
      (j < n), r ticks into it: j runs done, g - r ticks to go. */
  lemma {:induction false} Phase(g: int, n: int, j: nat, r: nat)
    requires g >= 1 && n >= 1 && j < n && r < g
    ensures RunTask(MakeTv(g, n), j * g + r) == Some(Tv(g, g - r, j, n))
  {
    if r > 0 {
      Phase(g, n, j, r - 1);
      assert j * g + r - 1 == j * g + (r - 1);
    } else if j > 0 {
      Phase(g, n, j - 1, g - 1);
      assert (j - 1) * g + (g - 1) == j * g - 1;
    }
  }

  /** Tick j * g + r + 1 of the first n * g runs the task exactly when it
      ends a period: the task runs on ticks g, 2g, ..., n * g. */
  lemma FiresOnPeriodEnds(g: int, n: int, j: nat, r: nat)
    requires g >= 1 && n >= 1 && j < n && r < g
    ensures FiresOnTick(MakeTv(g, n), j * g + r + 1) <==> r == g - 1
  {
    Phase(g, n, j, r);
  }

  /** After its n-th run, on tick n * g, the task is gone, and stays gone. */
  lemma {:induction false} RemovedAfterLastRun(g: int, n: int, k: nat)
    requires g >= 1 && n >= 1 && k >= n * g
    ensures RunTask(MakeTv(g, n), k) == None
  {
    if k == n * g {
      Phase(g, n, n - 1, g - 1);
      assert (n - 1) * g + (g - 1) == k - 1;
    } else {
      RemovedAfterLastRun(g, n, k - 1);
    }
  }

  /** Added to a timer and ticked n * g times, the task is no longer there
      for `query`. */
  lemma QueryAfterLastRun<C>(t: Timer<C>, g: int, n: int, cb: C)
    requires g >= 1 && n >= 1
    ensures Query(TickN(Add(t, MakeTv(g, n), cb).timer, n * g), Add(t, MakeTv(g, n), cb).id) == Invalid
  {
    var a := Add(t, MakeTv(g, n), cb);
    TickNIsRunTask(a.timer, n * g, a.id);
    RemovedAfterLastRun(g, n, n * g);
  }

  /** A task whose run count starts at zero or more and whose total is zero
      or less (`inf_times` included) is never removed by ticking. */
  lemma {:induction false} UnboundedNeverRemoved(tv: Tv, k: nat)
    requires tv.spend >= 0 && tv.total <= 0
    ensures RunTask(tv, k).Some?
    ensures RunTask(tv, k).value.spend >= 0 && RunTask(tv, k).value.total == tv.total
  {
    if k > 0 {
      UnboundedNeverRemoved(tv, k - 1);
    }
  }
}

=== FILE: wiring.dfy ===
/** How the components meet: the reactor sends tick events as packets, the
    timer and the logger subscribe to the same channel, and each decodes the
    content it is handed. */
module Wiring {
  import opened Bytes
  import opened Results
  import EventChannel
  import Packet
  import Timer
  import Log

  /** A tick sent with the packed header and read by the intended receiver
      arrives with the tick event's id and a content that decodes to the same
      count: the round trip `send_packet` and `recv_packet` are meant to give. */
  lemma TickOverTheWire(ticks: int64, fill: Fill, recvFill: Fill)
    ensures Packet.RecvPacket(Packet.SendPacket(Timer.TickEventId, Timer.EncodeTick(ticks, fill)), recvFill).Ok?
    ensures Packet.RecvPacket(Packet.SendPacket(Timer.TickEventId, Timer.EncodeTick(ticks, fill)), recvFill).value.id == Timer.TickEventId
    ensures Timer.DecodeTick(Packet.RecvPacket(Packet.SendPacket(Timer.TickEventId, Timer.EncodeTick(ticks, fill)), recvFill).value.payload) == Ok(ticks)
  {
    var content := Timer.EncodeTick(ticks, fill);
    Packet.PacketRoundTrip(Timer.TickEventId, content, recvFill);
    Timer.TickRoundTrip(ticks, fill);
  }

  /** As written, `send_packet(fd, tick_event(ticks))` pads the header, so
      `recv_packet` reads a size of at least 2^35 and asks for a buffer that
      large. When that allocation fails it throws; when it succeeds it copies
      a null pointer in place of the content, so every tick, whatever its
      count, arrives as 0. */
  lemma TickOverTheWireAsWritten(ticks: int64, fill: Fill, pad: seq<byte>, malloc: nat, addr: nat, recvFill: Fill)
    requires |pad| == 4
    ensures (Packet.RecvPacketAsWritten(Packet.SendPacketAsWritten(Timer.TickEventId, Timer.EncodeTick(ticks, fill), pad), malloc, addr, recvFill)
             == Err(Packet.RecvError)) <==> malloc == 0
    ensures malloc != 0 ==>
      && Packet.RecvPacketAsWritten(Packet.SendPacketAsWritten(Timer.TickEventId, Timer.EncodeTick(ticks, fill), pad), malloc, addr, recvFill).Ok?
      && |Packet.RecvPacketAsWritten(Packet.SendPacketAsWritten(Timer.TickEventId, Timer.EncodeTick(ticks, fill), pad), malloc, addr, recvFill).value.payload| >= 0x8_0000_0000
      && Timer.DecodeTick(Packet.RecvPacketAsWritten(Packet.SendPacketAsWritten(Timer.TickEventId, Timer.EncodeTick(ticks, fill), pad), malloc, addr, recvFill).value.payload) == Ok(0)
  {
    var content := Timer.EncodeTick(ticks, fill);
    Packet.PaddedHeaderCopiesNull(Timer.TickEventId, content, pad, malloc, addr, recvFill);
    Packet.PaddedHeaderBreaksRoundTrip(Timer.TickEventId, content, pad, malloc, addr, recvFill);
    Packet.PaddedHeaderSize(Timer.TickEventId, content, pad);
    DecodeEncodeInt(0, 8);
  }

  /** A channel where the logger subscribed under `logId` and then the
      timer's tick handler under the tick event's id. */
  function LoggerAndTimer<C>(logId: int, logger: C, ticker: C): (ch: EventChannel.Channel<C>)
    ensures EventChannel.Valid(ch)
  {
    var withLog := EventChannel.Subscribe(EventChannel.Empty(), logId, logger).channel;
    EventChannel.Subscribe(withLog, Timer.TickEventId, ticker).channel
  }

  /** The two subscribers of the tick event's channel, as far as decoding
      goes: the logger builds an `event_log` from the content, the timer a
      `tick_event`. */
  datatype Subscriber = Logger | Ticker

  /** Whether the event constructor of the subscriber's event type accepts
      the content (`E(buffer)` inside each packaged handler). */
  predicate Decodes(s: Subscriber, content: seq<byte>) {
    match s
    case Logger => Log.DecodeLog(content).Ok?
    case Ticker => Timer.DecodeTick(content).Ok?
  }

  /** With the ids as written, both event types share id 1 and the logger
      subscribed first. Posting a tick enters the logger, whose `event_log`
      constructor cannot read a tick's 8 bytes: the exception leaves `post`
      and the timer's handler is never called. Posting a log record that
      decodes also steps the timer; one that does not ends at the logger. */
  lemma LogPostReachesTickHandler(ticks: int64, fill: Fill, record: seq<byte>)
    ensures Log.LogEventIdAsWritten == Timer.TickEventId
    ensures Log.DecodeLog(Timer.EncodeTick(ticks, fill)).Err?
    ensures EventChannel.PostChecked(LoggerAndTimer(Log.LogEventIdAsWritten, Logger, Ticker), Timer.TickEventId, Timer.EncodeTick(ticks, fill), Decodes) ==
      EventChannel.Delivery([EventChannel.Invocation(0, Logger, Timer.EncodeTick(ticks, fill))], true)
    ensures Log.DecodeLog(record).Ok? ==>
      EventChannel.PostChecked(LoggerAndTimer(Log.LogEventIdAsWritten, Logger, Ticker), Log.LogEventIdAsWritten, record, Decodes) ==
      EventChannel.Delivery([EventChannel.Invocation(0, Logger, record), EventChannel.Invocation(1, Ticker, record)], false)
    ensures Log.DecodeLog(record).Err? ==>
      EventChannel.PostChecked(LoggerAndTimer(Log.LogEventIdAsWritten, Logger, Ticker), Log.LogEventIdAsWritten, record, Decodes) ==
      EventChannel.Delivery([EventChannel.Invocation(0, Logger, record)], true)
  {
    var ch := LoggerAndTimer(Log.LogEventIdAsWritten, Logger, Ticker);
    var tick := Timer.EncodeTick(ticks, fill);
    SharedIdHandlers();
    TickIsNoLogRecord(ticks, fill);
    LogRecordIsTick(record);
    LoggerFirstPost(ch, Timer.TickEventId, tick);
    LoggerFirstPost(ch, Timer.TickEventId, record);
  }

  /** A post to the list logger-then-timer throws at the logger when the
      logger cannot decode the content, and otherwise enters both when the
      timer's handler decodes it too. */
  lemma LoggerFirstPost(ch: EventChannel.Channel<Subscriber>, ev: int, content: seq<byte>)
    requires EventChannel.HandlersOf(ch, ev) == [EventChannel.Handler(0, Logger), EventChannel.Handler(1, Ticker)]
    ensures !Decodes(Logger, content) ==>
      EventChannel.PostChecked(ch, ev, content, Decodes) == EventChannel.Delivery([EventChannel.Invocation(0, Logger, content)], true)
    ensures Decodes(Logger, content) && Decodes(Ticker, content) ==>
      EventChannel.PostChecked(ch, ev, content, Decodes) ==
      EventChannel.Delivery([EventChannel.Invocation(0, Logger, content), EventChannel.Invocation(1, Ticker, content)], false)
  {
    if !Decodes(Logger, content) {
      EventChannel.PostStopsAtFirstFailure(ch, ev, content, Decodes, 0);
    } else if Decodes(Ticker, content) {
      EventChannel.PostCheckedAllDecode(ch, ev, content, Decodes);
    }
  }

  /** A tick's 8 bytes decode as a tick and not as a log record. */
  lemma TickIsNoLogRecord(ticks: int64, fill: Fill)
    ensures Decodes(Ticker, Timer.EncodeTick(ticks, fill)) && !Decodes(Logger, Timer.EncodeTick(ticks, fill))
  {
  }

  /** Whatever decodes as a log record is long enough to decode as a tick. */
  lemma LogRecordIsTick(record: seq<byte>)
    ensures Decodes(Logger, record) ==> Decodes(Ticker, record)
  {
  }

  /** With the ids as written, the tick event's list holds the logger, then
      the timer's handler. */
  lemma SharedIdHandlers()
    ensures EventChannel.HandlersOf(LoggerAndTimer(Log.LogEventIdAsWritten, Logger, Ticker), Timer.TickEventId) ==
      [EventChannel.Handler(0, Logger), EventChannel.Handler(1, Ticker)]
  {
    var withLog := EventChannel.Subscribe(EventChannel.Empty(), Log.LogEventIdAsWritten, Logger).channel;
    assert EventChannel.HandlersOf(withLog, Timer.TickEventId) == [EventChannel.Handler(0, Logger)];
  }

  /** With an id of its own for the logger, a posted tick enters only the
      timer's handler, which decodes it, so the post completes. */
  lemma DistinctIdsTickReachesTimer(ticks: int64, fill: Fill)
    ensures EventChannel.PostChecked(LoggerAndTimer(Log.LogEventId, Logger, Ticker), Timer.TickEventId, Timer.EncodeTick(ticks, fill), Decodes) ==
      EventChannel.Delivery([EventChannel.Invocation(1, Ticker, Timer.EncodeTick(ticks, fill))], false)
  {
    var ch := LoggerAndTimer(Log.LogEventId, Logger, Ticker);
    var withLog := EventChannel.Subscribe(EventChannel.Empty(), Log.LogEventId, Logger).channel;
    var tick := Timer.EncodeTick(ticks, fill);
    EventChannel.SubscribeThenPost(withLog, Timer.TickEventId, Ticker, tick);
    assert EventChannel.HandlersOf(ch, Timer.TickEventId) == [EventChannel.Handler(1, Ticker)];
    EventChannel.PostCheckedAllDecode(ch, Timer.TickEventId, tick, Decodes);
  }

  /** With an id of its own for the logger, a tick reaches only the timer and
      a log record only the logger. */
  lemma DistinctIdsIsolateSubscribers<C>(logger: C, ticker: C, content: seq<byte>)
    ensures Log.LogEventId != Timer.TickEventId
    ensures EventChannel.Post(LoggerAndTimer(Log.LogEventId, logger, ticker), Timer.TickEventId, content) ==
      [EventChannel.Invocation(1, ticker, content)]
    ensures EventChannel.Post(LoggerAndTimer(Log.LogEventId, logger, ticker), Log.LogEventId, content) ==
      [EventChannel.Invocation(0, logger, content)]
  {
    var withLog := EventChannel.Subscribe(EventChannel.Empty(), Log.LogEventId, logger).channel;
    EventChannel.SubscribeThenPost(withLog, Timer.TickEventId, ticker, content);
    EventChannel.SubscribeThenPost(EventChannel.Empty(), Log.LogEventId, logger, content);
  }
}
